=== FILE: README.md ===
# Library inventory ledger, in Dafny

A model of the in-memory ledger behind the library web application in `app.js`. The ledger has four collections: users (`usuarios`), libraries (`bibliotecas`), book titles (`livros`) and physical copies (`acervo`). Each collection has an id counter that only grows (`qtdUsuarios`, `qtdBibliotecas`, `qtdLivros`, `qtdAcervo`).

The mutation routes are pure functions on an immutable `Ledger.Store`. Each returns a `Reply`: the store after the handler ran, plus its answer, either `Ok(value)` or `Err(Validation | NotFound | InsufficientCopies)`. A handler can fail after it has already changed something. This happens on `PUT /livros/:id` when too few copies are available, so the store is part of every reply, errors included.

Modules:

- `Wrappers`: `Option`, `Result`, the error kinds, and the JavaScript truthiness of optional text and number fields.
- `Seqs`: `filter`, `findIndex` and one-element `splice` on sequences, plus the id-ordering facts they keep.
- `Tags`: the `tags` field, given either as a list or as a comma-separated string. Splitting on `,` and joining with `,` are inverses.
- `Ledger`: the records, the store, the seed data, the copy views (copies of a title, its available copies) and the two invariants:
  - `Valid`: copy, title and library ids increase along their lists and stay below their counters, and every copy belongs to an existing title.
  - `Consistent`: each title has exactly `quantidade_total` copies.
- `Titles`: `POST /livros/new`, `PUT /livros/:id` and `DELETE /livros/:id`, including how copies are allocated and reclaimed.
- `Registry`: create, update and delete for users and libraries. Updates are "truthy-skip": a falsy field keeps the stored value.
- `Loans`: `PUT /acervo/status/:id`, which overwrites a copy's borrower. `Available` (-1) means not on loan.
- `Api`: the ten mutation requests as one state machine (`Step`, `Run`), with the id discipline (`Valid`) and copy-id freshness along any run, and the copy count (`Consistent`) along any run that creates no title with a negative quantity.
- `Scenarios`: concrete request sequences on the seed data.

The copy-reclaim loop is modelled as written: filter the available copies, then look up each victim by id and splice it out (`RemoveEach`). `Titles.ReclaimIsDrop` proves that, with copy ids in increasing order, this removes exactly the first k available copies in list order (`DropAvailable`).

Three behaviours of the handlers are easy to misread; the model follows the code:

- A shrink that fails for lack of available copies restores `quantidade_total`. The `nome`, `categoria` and `tags` edits made earlier in the handler stay in place (app.js:176-178 run before the check at 194-196). `Titles.UpdateTitleInsufficient` states this.
- Seed copy 0 is on loan to user 1 (app.js:37). Lowering the seed title from 10 to 7 therefore removes copies 1, 2 and 3, not 0, 1 and 2 (`Scenarios.SeedShrinkToSeven`).
- User ids are not unique. The seed users are numbered 1 to 3, but the user counter starts at 3. The first user created gets id 3, the same as `Pessoa3`, and lookups by id 3 reach `Pessoa3` first (`Registry.FirstCreatedUserCollides`, `Registry.DeleteAfterCreateHitsSeedUser`). For this reason `Valid` says nothing about user ids.

## Model

| member | source | states |
|---|---|---|
| Tags.Split | app.js:153 | `split(',')` gives at least one piece, and no piece contains a comma. |
| Tags.Join | app.js:74 | `join(',')` puts one comma between each two pieces, so comma-free pieces give a text with exactly one comma fewer than there are pieces. |
| Tags.Normalize | app.js:153 | A list of tags is kept as given. A string becomes at least one comma-free piece, and joining the pieces with `,` gives the string back. With `Tags.SplitJoin` this fixes the pieces uniquely. |
| Tags.JoinSplit | app.js:74 | Joining the pieces of a split string with `,` restores the string. |
| Tags.SplitJoin | app.js:74 | Splitting the `,`-join of a non-empty list of comma-free tags gives the list back. |
| Ledger.SeedCopies | app.js:36-47 | The seed copies have ids 0 to 9 in order, all of title 0. Copy 0 is lent to user 1 and the rest are available. |
| Ledger.SeedAvailable | app.js:36-47 | The seed title has nine available copies out of ten. |
| Ledger.SeedInvariants | app.js:24-56 | The seed data, with each counter at its list's length, satisfies both invariants. |
| Ledger.AvailableWithinCount | app.js:192 | A title never has more available copies than copies. |
| Ledger.NoCopiesOfUnissued | app.js:147 | On a valid store, no copy refers to a title id the counter has not yet issued. |
| Titles.FindTitle | app.js:170 | `findIndex` by id returns the first title with the id. It returns nothing exactly when no title has the id. |
| Titles.NewCopies | app.js:156-161 | The allocation loop gives n available copies of the title at the library. Their ids increase and lie in start to start+n-1. |
| Titles.CreateTitle | app.js:142-165 | Creation succeeds exactly when `nome`, `categoria` and `tags` are truthy and both numeric fields are present. A rejected request changes nothing. An accepted one appends the title with id `qtdLivros` and the fields as given, the quantity included even when negative. It adds as many copies as the quantity when that is positive, and none otherwise, after the existing copies, which stay. Users and libraries are untouched. |
| Titles.CreateTitleAllocates | app.js:147-163 | With quantity q >= 0, creation appends exactly q available copies of the new title at the given library, numbered `qtdAcervo` to `qtdAcervo`+q-1. Existing copies are unchanged, `qtdAcervo` grows by q and `qtdLivros` by 1. |
| Titles.CreateTitlePreserves | app.js:147-163 | Creation keeps `Valid`. With a non-negative quantity it keeps `Consistent`. An accepted negative quantity breaks `Consistent`. |
| Titles.EditTitle | app.js:176-178 | Each of `nome`, `categoria` and `tags` is overwritten exactly when the new value is truthy, otherwise kept. The id and quantity are not touched. |
| Titles.EditTitleTwice | app.js:176-178 | Applying the same edits twice is the same as applying them once. |
| Titles.GrowthLibrary | app.js:186 | Added copies go to the requested library if there is one, else to the first library, else to library 0. |
| Titles.UpdateTitleEditsOnly | app.js:171-183 | An update whose quantity is absent or unchanged is a plain edit. It answers with the edited title, which replaces the first title with the id. Nothing else in the store changes: not the copies, not the counters. |
| Titles.UpdateTitle | app.js:168-208 | NotFound exactly when no title has the id, and then the store is unchanged. Every error leaves the copies and the copy counter as they were. Users, libraries, their counters and the title counter never change. |
| Titles.UpdateTitleGrows | app.js:185-190 | Raising the quantity by diff appends exactly diff available copies of the title at the growth library, numbered on from `qtdAcervo`. Existing copies stay, and the title gets the edits and the new quantity. |
| Titles.UpdateTitleShrinks | app.js:191-201 | Lowering the quantity by k, with at least k copies available, runs the reclaim loop over the first k available copies and stores the new quantity. |
| Titles.RemoveFirstWithId | app.js:199-200 | `findIndex` by id followed by `splice(idx, 1)` removes the first copy with the id, and the other copies keep their order. With no copy of that id the list is unchanged. No copy is added. |
| Titles.RemoveEach | app.js:198-201 | The reclaim loop as written removes at most one copy per victim and adds none. |
| Titles.ReclaimIsDrop | app.js:198-201 | With copy ids in increasing order, looking up each victim by id and splicing it out removes exactly the first k available copies of the title in list order. |
| Titles.DropAvailableSpec | app.js:192-201 | After the drop, the title's available copies are the old ones minus the first k. All other copies are unchanged and in order, and the title's count drops by k. |
| Titles.DropAvailableOrdered | app.js:198-200 | Dropping keeps only copies that were there, still in increasing id order. |
| Titles.UpdateTitleReclaims | app.js:191-201 | A successful shrink by k on a valid store removes the first k available copies of the title and nothing else. Borrowed copies and other titles' copies stay, and the title's count drops by k. |
| Titles.UpdateTitleInsufficient | app.js:192-196 | With fewer available copies than the shrink needs, the answer is InsufficientCopies. The copies and the quantity stay as they were, but the `nome`/`categoria`/`tags` edits are kept. |
| Titles.NegativeQuantityRejected | app.js:181-196 | While counts match quantities, a negative new quantity always takes the insufficient-copies path. |
| Titles.UpdateTitleTwice | app.js:168-208 | Sending the same update twice gives the same store and the same answer as sending it once. |
| Titles.UpdateTitlePreserves | app.js:180-202 | Every title update keeps `Valid`, and keeps `Consistent` when it held before. |
| Titles.DeleteTitle | app.js:211-221 | NotFound exactly when no title has the id, and then nothing changes. Otherwise the first title with the id is removed and no copy of that id remains. Surviving copies were all there before, and the users, libraries and all counters are unchanged. |
| Titles.DeleteTitleCascade | app.js:216 | Deleting a title leaves the copies of every other title exactly as they were. |
| Titles.DeleteTitlePreserves | app.js:213-216 | Deletion keeps `Valid`, and keeps `Consistent` when it held before. |
| Registry.FindUser | app.js:236 | `find` by id stops at the first user with the id. It finds nothing exactly when no user has the id. |
| Registry.CreateUser | app.js:224-231 | Creation succeeds exactly when all four fields are truthy, so an `idade` or `nivel` of 0 is refused. A refusal changes nothing. Otherwise the user is appended with id `qtdUsuarios`, the counter grows by one, and nothing else changes. |
| Registry.PatchUser | app.js:238-242 | Each field is overwritten exactly when the new value is truthy, otherwise kept. The id never changes. |
| Registry.UpdateUser | app.js:234-245 | NotFound exactly when no user has the id, and then nothing changes. Otherwise only the first user with the id is patched, and nothing outside the user list changes. |
| Registry.UpdateUserTwice | app.js:234-245 | Sending the same user update twice is the same as sending it once. |
| Registry.DeleteUser | app.js:248-255 | NotFound exactly when no user has the id. Otherwise the first user with the id is spliced out, and copies, titles and libraries are untouched. |
| Registry.FirstCreatedUserCollides | app.js:227 | The first user created from the seed gets id 3, which `Pessoa3` already has. A later update of id 3 patches `Pessoa3` and not the new user. |
| Registry.DeleteAfterCreateHitsSeedUser | app.js:250-252 | Deleting id 3 right after that creation removes `Pessoa3` and keeps the new user. |
| Registry.CreateUserPreserves | app.js:224-231 | Creating a user keeps `Valid`, and keeps `Consistent` when it held before. |
| Registry.UpdateUserPreserves | app.js:234-245 | Updating a user keeps `Valid`, and keeps `Consistent` when it held before. |
| Registry.DeleteUserPreserves | app.js:248-255 | Deleting a user keeps `Valid`, and keeps `Consistent` when it held before. |
| Registry.FindLibrary | app.js:270 | `find` by id stops at the first library with the id. It finds nothing exactly when no library has the id. |
| Registry.CreateLibrary | app.js:258-265 | Creation succeeds exactly when `cnpj`, `acervo` and `cep` are truthy, so a capacity of 0 is refused. The library is appended with id `qtdBibliotecas`, and nothing else changes. |
| Registry.PatchLibrary | app.js:272-275 | Each field is overwritten exactly when the new value is truthy, otherwise kept. The id never changes. |
| Registry.UpdateLibrary | app.js:268-278 | NotFound exactly when no library has the id, and then nothing changes. Otherwise only the first library with the id is patched, and nothing outside the library list changes. |
| Registry.UpdateLibraryTwice | app.js:268-278 | Sending the same library update twice is the same as sending it once. |
| Registry.DeleteLibrary | app.js:281-288 | NotFound exactly when no library has the id. Otherwise the first library with the id is spliced out, and copies, titles and users are untouched. |
| Registry.CreateLibraryPreserves | app.js:258-265 | Creating a library keeps `Valid`: the new id is above every library id and below the raised counter. It keeps `Consistent` when it held before. |
| Registry.UpdateLibraryPreserves | app.js:268-278 | Updating a library keeps `Valid`, since the patched library keeps its id. It keeps `Consistent` when it held before. |
| Registry.DeleteLibraryPreserves | app.js:281-288 | Deleting a library keeps `Valid` and, when it held before, `Consistent`. This holds even though copies may still name the deleted library. |
| Loans.SetBorrower | app.js:291-302 | Success exactly when a copy has the id, `idUsuario` is present, and a positive `idUsuario` names an existing user. Every failure is NotFound and changes nothing. On success the first copy with the id gets the new borrower whatever it had before, and only the copy list changes. |
| Loans.SetBorrowerOnlyThatCopy | app.js:293-299 | On a valid store a successful toggle changes the borrower of the named copy and no other copy. |
| Loans.LendThenReturn | app.js:299 | Lending an available copy and then setting its borrower back to -1 restores the store exactly. |
| Loans.SetBorrowerPreserves | app.js:299 | The toggle keeps both invariants. |
| Api.StepPreserves | app.js:142-302 | Every request keeps `Valid`. Every request except creating a title with a negative quantity keeps `Consistent`. |
| Api.Step | app.js:142-302 | One request, routed to its handler. No request lowers any of the four counters. The user list changes only under a user route, the library list only under a library route, and neither kind of route touches the titles or the copies. |
| Api.StepCopyIdsFresh | app.js:156-160 | After a request, each copy has the id of a copy that existed before, or a new id at or above the old copy counter. |
| Api.RunPreserves | app.js:142-302 | From a valid store, `Valid` holds after any sequence of requests. From a store that is also consistent, `Consistent` holds after any sequence that creates no title with a negative quantity. |
| Api.RunCopyIdsFresh | app.js:188-189 | Along any sequence of requests the copy counter never drops. Every copy's id is one a starting copy had, or an id at or above the starting counter. |
| Api.DeletedCopyIdNeverReissued | app.js:198-200 | A copy id below the counter that no copy carries never appears again, whatever requests follow. |
| Api.SeedRunPreserves | app.js:24-56 | From the seed data, `Valid` holds after any sequence of requests, and `Consistent` after any sequence that creates no title with a negative quantity. |
| Scenarios.SeedShrinkToSeven | app.js:191-201 | Lowering the seed title to 7 keeps the borrowed copy 0, removes copies 1, 2 and 3, and leaves 7 copies. |
| Scenarios.SeedGrowToTwenty | app.js:185-190 | Raising it to 20 afterwards, with no library given, adds 13 available copies with ids 10 to 22 at library 0. The copy counter ends at 23. |
| Scenarios.SeedDeleteTitle | app.js:211-217 | Deleting the seed title removes all ten of its copies, the lent one included. Users and libraries stay. |
| Scenarios.EmptyNameSkipped | app.js:239 | An empty `nome` in a user update is falsy, so the stored name stays. |
| Scenarios.CopyIdNotReused | app.js:156-160 | Create two one-copy titles, delete the first, create a third: the third copy gets a new id, not the deleted one. |

## Left out

- Express setup, middleware, static files and `app.listen` (app.js:1-21, 304-306): framework I/O with nothing to state.
- The GET routes and their view enrichment (app.js:60-136): template rendering. Only the `join(',')` of line 74 is used, as the inverse of tag splitting.
- `parseInt` and `NaN`: numeric request fields are modelled as already-parsed optional integers. Truthiness is "present and non-zero". In the source a form field holding the string "0" is truthy before it is parsed; the model does not reproduce that.
- Request fields of unexpected JSON types (a number as `nome`, an object as `tags`, on which `split` would throw): the model admits only strings and, for `tags`, a list or a string.
- HTTP status codes and JSON error texts: mapped to `Validation`, `NotFound` and `InsufficientCopies`.
- The `nivel` label map (app.js:24): display only, it gates nothing.
- Titles.CreateTitlePreserves: keeps `Consistent` only for a non-negative quantity. The source stores a negative quantity and allocates no copies, which breaks the count, and the lemma states that break instead.
- Api.RunPreserves: promises `Consistent` only along runs that create no title with a negative quantity, for the reason above. `Valid` is promised along every run.
- Api.SeedRunPreserves: the same restriction on `Consistent` as `Api.RunPreserves`.

=== FILE: api.dfy ===
/** The mutation routes as one request type, the ledger as a state machine over
    them, and the properties that hold along any sequence of requests. */
module Api {
  import opened Wrappers
  import opened Seqs
  import opened Ledger
  import opened Titles
  import opened Registry
  import opened Loans

  /** One mutation request, named after its route; path ids are already parsed. */
  datatype Request =
    | PostLivro(title: TitleFields)
    | PutLivro(id: int, title: TitleFields)
    | DeleteLivro(id: int)
    | PostUsuario(user: UserFields)
    | PutUsuario(id: int, user: UserFields)
    | DeleteUsuario(id: int)
    | PostBiblioteca(library: LibraryFields)
    | PutBiblioteca(id: int, library: LibraryFields)
    | DeleteBiblioteca(id: int)
    | PutAcervoStatus(id: int, idUsuario: Option<int>)

  predicate IsUserRequest(req: Request) {
    req.PostUsuario? || req.PutUsuario? || req.DeleteUsuario?
  }

  predicate IsLibraryRequest(req: Request) {
    req.PostBiblioteca? || req.PutBiblioteca? || req.DeleteBiblioteca?
  }

  /** The store after one request has been handled, whether it succeeded or not.
      No request lowers a counter; the user list changes only under a user route,
      the library list only under a library route, and neither of those touches
      the titles or the copies. */
  function Step(s: Store, req: Request): (s': Store)
    ensures && s.qtdUsuarios <= s'.qtdUsuarios && s.qtdBibliotecas <= s'.qtdBibliotecas
            && s.qtdLivros <= s'.qtdLivros && s.qtdAcervo <= s'.qtdAcervo
    ensures !IsUserRequest(req) ==> s'.usuarios == s.usuarios
    ensures !IsLibraryRequest(req) ==> s'.bibliotecas == s.bibliotecas
    ensures IsUserRequest(req) || IsLibraryRequest(req) ==> s'.livros == s.livros && s'.acervo == s.acervo
  {
    match req
    case PostLivro(f) => CreateTitle(s, f).store
    case PutLivro(id, f) => UpdateTitle(s, id, f).store
    case DeleteLivro(id) => DeleteTitle(s, id).store
    case PostUsuario(f) => CreateUser(s, f).store
    case PutUsuario(id, f) => UpdateUser(s, id, f).store
    case DeleteUsuario(id) => DeleteUser(s, id).store
    case PostBiblioteca(f) => CreateLibrary(s, f).store
    case PutBiblioteca(id, f) => UpdateLibrary(s, id, f).store
    case DeleteBiblioteca(id) => DeleteLibrary(s, id).store
    case PutAcervoStatus(id, u) => SetBorrower(s, id, u).store
  }

  /** The store after a sequence of requests, handled one at a time in order. */
  function Run(s: Store, reqs: seq<Request>): Store
    decreases |reqs|
  {
    if |reqs| == 0 then s else Run(Step(s, reqs[0]), reqs[1..])
  }

  /** A request that does not create a title with a negative quantity. */
  predicate NonNegativeCreate(req: Request) {
    req.PostLivro? && req.title.quantidade.Some? ==> req.title.quantidade.value >= 0
  }

  /** Every request keeps the id discipline; every request but a negative-quantity
      creation keeps each title's copy count equal to its quantity. */
  lemma StepPreserves(s: Store, req: Request)
    requires Valid(s)
    ensures Valid(Step(s, req))
    ensures Consistent(s) && NonNegativeCreate(req) ==> Consistent(Step(s, req))
  {
    if req.PostLivro? || req.PutLivro? || req.DeleteLivro? {
      TitleStepPreserves(s, req);
    } else {
      OtherStepPreserves(s, req);
    }
  }

  /** `StepPreserves` for the title routes. */
  lemma TitleStepPreserves(s: Store, req: Request)
    requires Valid(s) && (req.PostLivro? || req.PutLivro? || req.DeleteLivro?)
    ensures Valid(Step(s, req))
    ensures Consistent(s) && NonNegativeCreate(req) ==> Consistent(Step(s, req))
  {
    var s' := Step(s, req);
    match req
    case PostLivro(f) =>
      CreateTitlePreserves(s, f);
      assert s' == CreateTitle(s, f).store;
    case PutLivro(id, f) =>
      UpdateTitlePreserves(s, id, f);
      assert s' == UpdateTitle(s, id, f).store;
    case DeleteLivro(id) =>
      DeleteTitlePreserves(s, id);
      assert s' == DeleteTitle(s, id).store;
  }

  /** `StepPreserves` for the user, library and loan routes. */
  lemma OtherStepPreserves(s: Store, req: Request)
    requires Valid(s) && !(req.PostLivro? || req.PutLivro? || req.DeleteLivro?)
    ensures Valid(Step(s, req))
    ensures Consistent(s) ==> Consistent(Step(s, req))
  {
    var s' := Step(s, req);
    match req
    case PostUsuario(f) =>
      CreateUserPreserves(s, f);
      assert s' == CreateUser(s, f).store;
    case PutUsuario(id, f) =>
      UpdateUserPreserves(s, id, f);
      assert s' == UpdateUser(s, id, f).store;
    case DeleteUsuario(id) =>
      DeleteUserPreserves(s, id);
      assert s' == DeleteUser(s, id).store;
    case PostBiblioteca(f) =>
      CreateLibraryPreserves(s, f);
      assert s' == CreateLibrary(s, f).store;
    case PutBiblioteca(id, f) =>
      UpdateLibraryPreserves(s, id, f);
      assert s' == UpdateLibrary(s, id, f).store;
    case DeleteBiblioteca(id) =>
      DeleteLibraryPreserves(s, id);
      assert s' == DeleteLibrary(s, id).store;
    case PutAcervoStatus(id, u) =>
      SetBorrowerPreserves(s, id, u);
      assert s' == SetBorrower(s, id, u).store;
  }

  /** After one request on a valid store, every copy carries either an id some copy
      already had, or a new id at or above the old copy counter. */
  lemma StepCopyIdsFresh(s: Store, req: Request)
    requires Valid(s)
    ensures forall c :: c in Step(s, req).acervo ==> HasCopy(s.acervo, c.id) || s.qtdAcervo <= c.id
  {
    var after := Step(s, req).acervo;
    match req
    case PostLivro(f) =>
      CreateTitleCopyIds(s, f);
      KeptCopiesHaveIds(s.acervo, after, s.qtdAcervo);
    case PutLivro(id, f) =>
      UpdateTitleCopyIds(s, id, f);
      KeptCopiesHaveIds(s.acervo, after, s.qtdAcervo);
    case DeleteLivro(id) =>
      assert after == Filter(s.acervo, (c: Copy) => c.idlivro != id) || after == s.acervo;
      KeptCopiesHaveIds(s.acervo, after, s.qtdAcervo);
    case PutAcervoStatus(id, u) =>
      SetBorrowerCopyIds(s, id, u);
    case PostUsuario(f) =>
      KeptCopiesHaveIds(s.acervo, after, s.qtdAcervo);
    case PutUsuario(id, f) =>
      KeptCopiesHaveIds(s.acervo, after, s.qtdAcervo);
    case DeleteUsuario(id) =>
      KeptCopiesHaveIds(s.acervo, after, s.qtdAcervo);
    case PostBiblioteca(f) =>
      KeptCopiesHaveIds(s.acervo, after, s.qtdAcervo);
    case PutBiblioteca(id, f) =>
      KeptCopiesHaveIds(s.acervo, after, s.qtdAcervo);
    case DeleteBiblioteca(id) =>
      KeptCopiesHaveIds(s.acervo, after, s.qtdAcervo);
  }

  /** A copy list made of old copies and new ones at or above `bound`: each id is
      an old copy's id or at or above `bound`. */
  lemma KeptCopiesHaveIds(before: seq<Copy>, after: seq<Copy>, bound: int)
    requires forall c :: c in after ==> c in before || bound <= c.id
    ensures forall c :: c in after ==> HasCopy(before, c.id) || bound <= c.id
  {
    forall c | c in after && c in before ensures HasCopy(before, c.id) {
      var j :| 0 <= j < |before| && before[j] == c;
      assert before[j].id == c.id;
    }
  }

  /** Creation adds only copies numbered from the copy counter on. */
  lemma CreateTitleCopyIds(s: Store, f: TitleFields)
    ensures forall c :: c in CreateTitle(s, f).store.acervo ==> c in s.acervo || s.qtdAcervo <= c.id
  {
  }

  /** An update adds only copies numbered from the copy counter on, and removes
      copies without altering the rest. */
  lemma UpdateTitleCopyIds(s: Store, id: int, f: TitleFields)
    requires Valid(s)
    ensures forall c :: c in UpdateTitle(s, id, f).store.acervo ==> c in s.acervo || s.qtdAcervo <= c.id
  {
    var found := FindTitle(s.livros, id);
    if found.Some? {
      var k := found.value;
      if f.quantidade.Some? && f.quantidade.value < s.livros[k].quantidade
        && |AvailableOf(s.acervo, id)| >= s.livros[k].quantidade - f.quantidade.value
      {
        var remove := s.livros[k].quantidade - f.quantidade.value;
        UpdateTitleShrinks(s, id, f, k);
        ReclaimIsDrop(s.acervo, id, remove);
        DropAvailableOrdered(s.acervo, id, remove);
      }
    }
  }

  /** The toggle keeps every copy id: the copy it rewrites keeps its own. */
  lemma SetBorrowerCopyIds(s: Store, copyId: int, idUsuario: Option<int>)
    ensures forall c :: c in SetBorrower(s, copyId, idUsuario).store.acervo ==> HasCopy(s.acervo, c.id)
  {
    var after := SetBorrower(s, copyId, idUsuario).store.acervo;
    forall c | c in after ensures HasCopy(s.acervo, c.id) {
      var j :| 0 <= j < |after| && after[j] == c;
      if s.acervo[j] != c {
        var k := IndexWhere(s.acervo, (x: Copy) => x.id == copyId).value;
        assert after == s.acervo[k := after[k]] && j == k;
      }
      assert s.acervo[j].id == c.id;
    }
  }

  /** Along any sequence of requests from a valid store the id discipline holds;
      from a consistent one the copy count holds too, as long as no title is
      created with a negative quantity. */
  lemma {:induction false} RunPreserves(s: Store, reqs: seq<Request>)
    requires Valid(s)
    ensures Valid(Run(s, reqs))
    ensures Consistent(s) && (forall i :: 0 <= i < |reqs| ==> NonNegativeCreate(reqs[i])) ==>
      Consistent(Run(s, reqs))
    decreases |reqs|
  {
    if |reqs| > 0 {
      StepPreserves(s, reqs[0]);
      RunPreserves(Step(s, reqs[0]), reqs[1..]);
    }
  }

  /** Along any sequence of requests, every copy carries an id that a copy had at
      the start or one issued later: ids are never handed out twice. */
  lemma {:induction false} RunCopyIdsFresh(s: Store, reqs: seq<Request>)
    requires Valid(s)
    ensures s.qtdAcervo <= Run(s, reqs).qtdAcervo
    ensures forall c :: c in Run(s, reqs).acervo ==> HasCopy(s.acervo, c.id) || s.qtdAcervo <= c.id
    decreases |reqs|
  {
    if |reqs| > 0 {
      var s1 := Step(s, reqs[0]);
      StepPreserves(s, reqs[0]);
      StepCopyIdsFresh(s, reqs[0]);
      RunCopyIdsFresh(s1, reqs[1..]);
      forall c | c in Run(s, reqs).acervo ensures HasCopy(s.acervo, c.id) || s.qtdAcervo <= c.id {
        if HasCopy(s1.acervo, c.id) {
          var j :| 0 <= j < |s1.acervo| && s1.acervo[j].id == c.id;
          assert s1.acervo[j] in s1.acervo;
        }
      }
    }
  }

  /** A copy id that was issued and whose copy is gone never comes back, whatever
      requests follow. */
  lemma DeletedCopyIdNeverReissued(s: Store, reqs: seq<Request>, id: int)
    requires Valid(s)
    requires 0 <= id < s.qtdAcervo && !HasCopy(s.acervo, id)
    ensures !HasCopy(Run(s, reqs).acervo, id)
  {
    RunCopyIdsFresh(s, reqs);
    var cs := Run(s, reqs).acervo;
    forall j | 0 <= j < |cs| ensures cs[j].id != id {
      assert cs[j] in cs;
    }
  }

  /** Starting from the seed data, the id discipline holds after any sequence of
      requests, and the copy count after any that creates no title with a negative
      quantity. */
  lemma SeedRunPreserves(reqs: seq<Request>)
    ensures Valid(Run(Seed(), reqs))
    ensures (forall i :: 0 <= i < |reqs| ==> NonNegativeCreate(reqs[i])) ==> Consistent(Run(Seed(), reqs))
  {
    SeedInvariants();
    RunPreserves(Seed(), reqs);
  }
}

=== FILE: ledger.dfy ===
/** The in-memory inventory ledger: users, libraries, titles (`livros`) and
    physical copies (`acervo`), each with a counter that issues ids. */
module Ledger {
  import opened Wrappers
  import opened Seqs

  /** The borrower value of a copy that is not on loan. */
  const Available: int := -1

  datatype User = User(id: int, nome: string, cpf: string, idade: int, nivel: int)

  /** A library; `acervo` is its declared capacity, not a list of copies. */
  datatype Library = Library(id: int, cnpj: string, acervo: int, cep: string)

  /** A book title; `quantidade` is the declared number of copies (`quantidade_total`). */
  datatype Title = Title(id: int, nome: string, categoria: string, tags: seq<string>, quantidade: int)

  /** One physical copy of title `idlivro`, held by library `idbiblioteca`,
      lent to user `idUsuario` or `Available`. */
  datatype Copy = Copy(id: int, idlivro: int, idbiblioteca: int, idUsuario: int)

  /** The four collections and their id counters. A counter only grows, so it
      drifts away from its collection's length once records are deleted. */
  datatype Store = Store(
    usuarios: seq<User>,
    bibliotecas: seq<Library>,
    livros: seq<Title>,
    acervo: seq<Copy>,
    qtdUsuarios: nat,
    qtdBibliotecas: nat,
    qtdLivros: nat,
    qtdAcervo: nat)

  /** What a handler leaves behind: the store after it ran, and its answer. */
  datatype Reply<+T> = Reply(store: Store, result: Result<T>)

  function LibraryId(b: Library): int { b.id }
  function TitleId(t: Title): int { t.id }
  function CopyId(c: Copy): int { c.id }

  /** The data a fresh process starts with; each counter starts at its collection's length. */
  function Seed(): Store {
    Store(SeedUsers(), SeedLibraries(), SeedTitles(), SeedCopyList(),
          |SeedUsers()|, |SeedLibraries()|, |SeedTitles()|, |SeedCopyList()|)
  }

  function SeedUsers(): seq<User> {
    [User(1, "Pessoa1", "123456789-01", 16, 1),
     User(2, "Pessoa2", "123456759-01", 18, 1),
     User(3, "Pessoa3", "123536759-01", 29, 3)]
  }

  function SeedLibraries(): seq<Library> {
    [Library(0, "2y9167391693816", 120, "9873278-399")]
  }

  function SeedTitles(): seq<Title> {
    [Title(0, "livro de romance", "romance", ["classico", "finaltriste"], 10)]
  }

  /** Ten copies of title 0 at library 0; copy 0 is lent to user 1. */
  function SeedCopyList(): seq<Copy> {
    [Copy(0, 0, 0, 1),
     Copy(1, 0, 0, Available), Copy(2, 0, 0, Available), Copy(3, 0, 0, Available),
     Copy(4, 0, 0, Available), Copy(5, 0, 0, Available), Copy(6, 0, 0, Available),
     Copy(7, 0, 0, Available), Copy(8, 0, 0, Available), Copy(9, 0, 0, Available)]
  }

  // ---------------------------------------------------------------------------
  // Views of the copy list

  predicate IsCopyOf(c: Copy, title: int) { c.idlivro == title }

  predicate IsAvailableCopyOf(c: Copy, title: int) { c.idlivro == title && c.idUsuario == Available }

  /** The copies of one title, in list order. */
  function CopiesOf(cs: seq<Copy>, title: int): seq<Copy> {
    Filter(cs, (c: Copy) => IsCopyOf(c, title))
  }

  /** The copies of one title not on loan, in list order. */
  function AvailableOf(cs: seq<Copy>, title: int): seq<Copy> {
    Filter(cs, (c: Copy) => IsAvailableCopyOf(c, title))
  }

  /** Every copy except the available copies of one title, in list order. */
  function OthersThanAvailableOf(cs: seq<Copy>, title: int): seq<Copy> {
    Filter(cs, (c: Copy) => !IsAvailableCopyOf(c, title))
  }

  function CountOf(cs: seq<Copy>, title: int): nat {
    |CopiesOf(cs, title)|
  }

  /** The available copies of a title are among its copies, so there are no more of them. */
  lemma AvailableWithinCount(cs: seq<Copy>, title: int)
    ensures |AvailableOf(cs, title)| <= CountOf(cs, title)
    decreases |cs|
  {
    if |cs| > 0 {
      AvailableWithinCount(cs[1..], title);
    }
  }

  predicate HasTitle(ts: seq<Title>, id: int) {
    exists j :: 0 <= j < |ts| && ts[j].id == id
  }

  predicate HasUser(us: seq<User>, id: int) {
    exists j :: 0 <= j < |us| && us[j].id == id
  }

  // ---------------------------------------------------------------------------
  // Invariants

  /** The id discipline of the counters: titles, libraries and copies carry ids
      below their counter, in increasing list order (hence pairwise distinct),
      and every copy refers to a title that exists. User ids are left out: the
      seed users are numbered from 1 while their counter starts at 3. */
  ghost predicate Valid(s: Store) {
    && Increasing(s.acervo, CopyId) && KeysBelow(s.acervo, CopyId, s.qtdAcervo)
    && Increasing(s.livros, TitleId) && KeysBelow(s.livros, TitleId, s.qtdLivros)
    && Increasing(s.bibliotecas, LibraryId) && KeysBelow(s.bibliotecas, LibraryId, s.qtdBibliotecas)
    && (forall c :: c in s.acervo ==> HasTitle(s.livros, c.idlivro))
  }

  /** Each title has exactly as many copies as it declares. */
  ghost predicate Consistent(s: Store) {
    forall i :: 0 <= i < |s.livros| ==> CountOf(s.acervo, s.livros[i].id) == s.livros[i].quantidade
  }

  /** Under `Valid`, two titles at different positions have different ids. */
  lemma TitleIdsDistinct(s: Store, i: nat, j: nat)
    requires Valid(s)
    requires i < |s.livros| && j < |s.livros| && i != j
    ensures s.livros[i].id != s.livros[j].id
  {
    if i < j {
      assert TitleId(s.livros[i]) < TitleId(s.livros[j]);
    } else {
      assert TitleId(s.livros[j]) < TitleId(s.livros[i]);
    }
  }

  /** Under `Valid`, a title id not yet issued has no copies. */
  lemma NoCopiesOfUnissued(s: Store, id: int)
    requires Valid(s) && s.qtdLivros <= id
    ensures CopiesOf(s.acervo, id) == []
  {
    forall c | c in s.acervo ensures !IsCopyOf(c, id) {
      var j :| 0 <= j < |s.livros| && s.livros[j].id == c.idlivro;
      assert s.livros[j] in s.livros;
    }
    FilterNone(s.acervo, (c: Copy) => IsCopyOf(c, id));
  }

  /** The seed copies are numbered 0..9 in order, all of title 0, all but copy 0 available. */
  lemma SeedCopies()
    ensures var cs := Seed().acervo;
      && |cs| == 10 && Seed().qtdAcervo == 10
      && (forall i :: 0 <= i < |cs| ==> cs[i].id == i && cs[i].idlivro == 0)
      && cs[0].idUsuario == 1
      && (forall i :: 1 <= i < |cs| ==> cs[i].idUsuario == Available)
  {
  }

  /** Copies numbered by their position are in increasing id order, below their count. */
  lemma NumberedCopies(cs: seq<Copy>)
    requires forall i :: 0 <= i < |cs| ==> cs[i].id == i
    ensures Increasing(cs, CopyId) && KeysBelow(cs, CopyId, |cs|)
  {
    forall c | c in cs ensures 0 <= CopyId(c) < |cs| {
      var j :| 0 <= j < |cs| && cs[j] == c;
    }
  }

  lemma SeedValid()
    ensures Valid(Seed())
  {
    var s := Seed();
    SeedCopies();
    NumberedCopies(s.acervo);
    assert s.livros[0].id == 0;
    forall c | c in s.acervo ensures HasTitle(s.livros, c.idlivro) {
      var j :| 0 <= j < |s.acervo| && s.acervo[j] == c;
    }
  }

  lemma CountWhenAllOf(cs: seq<Copy>, title: int)
    requires forall i :: 0 <= i < |cs| ==> cs[i].idlivro == title
    ensures CountOf(cs, title) == |cs|
  {
    FilterAll(cs, (c: Copy) => IsCopyOf(c, title));
  }

  lemma AvailableAfterFirst(cs: seq<Copy>, title: int)
    requires |cs| > 0 && !IsAvailableCopyOf(cs[0], title)
    requires forall i :: 1 <= i < |cs| ==> IsAvailableCopyOf(cs[i], title)
    ensures |AvailableOf(cs, title)| == |cs| - 1
  {
    FilterAll(cs[1..], (c: Copy) => IsAvailableCopyOf(c, title));
  }

  lemma SeedConsistent()
    ensures Consistent(Seed())
  {
    SeedCopies();
    CountWhenAllOf(Seed().acervo, 0);
  }

  /** Copy 0 of the seed is on loan to user 1, so title 0 has nine available
      copies out of ten. */
  lemma SeedAvailable()
    ensures |AvailableOf(Seed().acervo, 0)| == 9
  {
    SeedCopies();
    AvailableAfterFirst(Seed().acervo, 0);
  }

  /** The seed data satisfies both invariants. */
  lemma SeedInvariants()
    ensures Valid(Seed()) && Consistent(Seed())
  {
    SeedValid();
    SeedConsistent();
  }
}

=== FILE: loans.dfy ===
/** The borrow/return toggle (PUT /acervo/status/:id): overwrite a copy's borrower. */
module Loans {
  import opened Wrappers
  import opened Seqs
  import opened Ledger

  predicate HasCopy(cs: seq<Copy>, id: int) {
    exists j :: 0 <= j < |cs| && cs[j].id == id
  }

  /** `k` is the position of the first copy carrying `id`. */
  predicate IsFirstCopy(cs: seq<Copy>, id: int, k: nat) {
    k < |cs| && cs[k].id == id && forall j :: 0 <= j < k ==> cs[j].id != id
  }

  /** Whether the borrower is accepted: only a positive id is checked against the
      users; `Available`, 0 and every other non-positive value pass unchecked. */
  predicate BorrowerAccepted(us: seq<User>, borrower: int) {
    borrower > 0 ==> HasUser(us, borrower)
  }

  /** Sets the borrower of the first copy with the id, whatever it was before: a
      lent copy can be lent again and a returned one returned again. A missing copy,
      a missing `idUsuario` field or an unknown positive user id is NotFound and
      leaves the store as it was. */
  function SetBorrower(s: Store, copyId: int, idUsuario: Option<int>): (r: Reply<Copy>)
    ensures r.result.Ok? <==> HasCopy(s.acervo, copyId) && idUsuario.Some? && BorrowerAccepted(s.usuarios, idUsuario.value)
    ensures r.result.Err? ==> r.result.error == NotFound && r.store == s
    ensures r.result.Ok? ==>
      && r.result.value.id == copyId && r.result.value.idUsuario == idUsuario.value
      && r.result.value in r.store.acervo
    ensures forall k: nat :: IsFirstCopy(s.acervo, copyId, k) && r.result.Ok? ==>
      && r.result.value == s.acervo[k].(idUsuario := idUsuario.value)
      && r.store.acervo == s.acervo[k := r.result.value]
    ensures r.store == s.(acervo := r.store.acervo)
  {
    match IndexWhere(s.acervo, (c: Copy) => c.id == copyId)
    case None => Reply(s, Err(NotFound))
    case Some(k) =>
      if idUsuario.None? then Reply(s, Err(NotFound))
      else if !BorrowerAccepted(s.usuarios, idUsuario.value) then Reply(s, Err(NotFound))
      else
        var c := s.acervo[k].(idUsuario := idUsuario.value);
        assert s.acervo[k := c][k] == c;
        Reply(s.(acervo := s.acervo[k := c]), Ok(c))
  }

  /** On a valid store copy ids are distinct, so a successful toggle changes only
      the borrower of the copy named, and no other copy. */
  lemma SetBorrowerOnlyThatCopy(s: Store, copyId: int, idUsuario: Option<int>)
    requires Valid(s)
    requires SetBorrower(s, copyId, idUsuario).result.Ok?
    ensures var cs := SetBorrower(s, copyId, idUsuario).store.acervo;
      && |cs| == |s.acervo|
      && forall i :: 0 <= i < |cs| ==>
           if s.acervo[i].id == copyId then cs[i] == s.acervo[i].(idUsuario := idUsuario.value)
           else cs[i] == s.acervo[i]
  {
    var first: nat := IndexWhere(s.acervo, (c: Copy) => c.id == copyId).value;
    assert IsFirstCopy(s.acervo, copyId, first);
  }

  /** Lending an available copy and then returning it (borrower `Available`)
      gives back the store exactly as it was. */
  lemma LendThenReturn(s: Store, copyId: int, borrower: int)
    requires SetBorrower(s, copyId, Some(borrower)).result.Ok?
    requires forall k: nat :: IsFirstCopy(s.acervo, copyId, k) ==> s.acervo[k].idUsuario == Available
    ensures SetBorrower(SetBorrower(s, copyId, Some(borrower)).store, copyId, Some(Available)).store == s
  {
    var k: nat := IndexWhere(s.acervo, (c: Copy) => c.id == copyId).value;
    assert IsFirstCopy(s.acervo, copyId, k);
    var lent := SetBorrower(s, copyId, Some(borrower)).store;
    assert IsFirstCopy(lent.acervo, copyId, k) by {
      forall j | 0 <= j < k ensures lent.acervo[j].id != copyId {
        assert lent.acervo[j] == s.acervo[j];
      }
    }
    assert lent.acervo[k := lent.acervo[k].(idUsuario := Available)] == s.acervo;
  }

  /** The toggle keeps both invariants: ids and titles of copies do not change. */
  lemma SetBorrowerPreserves(s: Store, copyId: int, idUsuario: Option<int>)
    requires Valid(s)
    ensures Valid(SetBorrower(s, copyId, idUsuario).store)
    ensures Consistent(s) ==> Consistent(SetBorrower(s, copyId, idUsuario).store)
  {
    var r := SetBorrower(s, copyId, idUsuario);
    match IndexWhere(s.acervo, (c: Copy) => c.id == copyId)
    case None =>
    case Some(k) =>
      if r.result.Ok? {
        assert IsFirstCopy(s.acervo, copyId, k);
        var c := r.result.value;
        ReplaceCopyValid(s, r.store, k, c);
        if Consistent(s) {
          ReplaceCopyConsistent(s, r.store, k, c);
        }
      }
  }

  /** Replacing copy `k` by one with the same id and title keeps the id discipline. */
  lemma ReplaceCopyValid(s: Store, s': Store, k: nat, c: Copy)
    requires Valid(s) && k < |s.acervo|
    requires s' == s.(acervo := s.acervo[k := c])
    requires c.id == s.acervo[k].id && c.idlivro == s.acervo[k].idlivro
    ensures Valid(s')
  {
    UpdateIncreasing(s.acervo, k, c, CopyId);
    forall x | x in s'.acervo ensures 0 <= CopyId(x) < s'.qtdAcervo && HasTitle(s'.livros, x.idlivro) {
      var j :| 0 <= j < |s'.acervo| && s'.acervo[j] == x;
      assert s.acervo[j] in s.acervo;
    }
  }

  /** Replacing copy `k` by one of the same title keeps every title's count. */
  lemma ReplaceCopyConsistent(s: Store, s': Store, k: nat, c: Copy)
    requires Consistent(s) && k < |s.acervo|
    requires s' == s.(acervo := s.acervo[k := c])
    requires c.idlivro == s.acervo[k].idlivro
    ensures Consistent(s')
  {
    forall i | 0 <= i < |s.livros|
      ensures CountOf(s'.acervo, s.livros[i].id) == CountOf(s.acervo, s.livros[i].id)
    {
      FilterUpdateLength(s.acervo, k, c, (x: Copy) => IsCopyOf(x, s.livros[i].id));
    }
  }
}

=== FILE: registry.dfy ===
/** The user and library handlers (POST/PUT/DELETE on `/usuarios` and
    `/bibliotecas`): presence-checked creation, truthy-skip partial updates and
    deletion of the first record with the id, with no effect on titles or copies. */
module Registry {
  import opened Wrappers
  import opened Seqs
  import opened Ledger

  datatype UserFields = UserFields(nome: Option<string>, cpf: Option<string>, idade: Option<int>, nivel: Option<int>)

  datatype LibraryFields = LibraryFields(cnpj: Option<string>, acervo: Option<int>, cep: Option<string>)

  /** `k` is where `find`/`findIndex` stops: the first user carrying `id`. */
  predicate IsFirstUser(us: seq<User>, id: int, k: nat) {
    k < |us| && us[k].id == id && forall j :: 0 <= j < k ==> us[j].id != id
  }

  /** `k` is the position of the first library carrying `id`. */
  predicate IsFirstLibrary(bs: seq<Library>, id: int, k: nat) {
    k < |bs| && bs[k].id == id && forall j :: 0 <= j < k ==> bs[j].id != id
  }

  function FindUser(us: seq<User>, id: int): (k: Option<nat>)
    ensures k.Some? ==> IsFirstUser(us, id, k.value)
    ensures k.None? <==> !HasUser(us, id)
  {
    IndexWhere(us, (u: User) => u.id == id)
  }

  predicate HasLibrary(bs: seq<Library>, id: int) {
    exists j :: 0 <= j < |bs| && bs[j].id == id
  }

  function FindLibrary(bs: seq<Library>, id: int): (k: Option<nat>)
    ensures k.Some? ==> IsFirstLibrary(bs, id, k.value)
    ensures k.None? <==> !HasLibrary(bs, id)
  {
    IndexWhere(bs, (b: Library) => b.id == id)
  }

  // ---------------------------------------------------------------------------
  // Users

  /** Every field is required and must be truthy, so an age or level of 0 is refused. */
  predicate UserAccepted(f: UserFields) {
    TruthyText(f.nome) && TruthyText(f.cpf) && TruthyNumber(f.idade) && TruthyNumber(f.nivel)
  }

  /** POST /usuarios: a new user numbered by the user counter. */
  function CreateUser(s: Store, f: UserFields): (r: Reply<User>)
    ensures r.result.Ok? <==> UserAccepted(f)
    ensures r.result.Err? ==> r.result.error == Validation && r.store == s
    ensures r.result.Ok? ==> var u := r.result.value;
      && u.id == s.qtdUsuarios
      && u.nome == f.nome.value && u.cpf == f.cpf.value
      && u.idade == f.idade.value && u.nivel == f.nivel.value
      && r.store == s.(usuarios := s.usuarios + [u], qtdUsuarios := s.qtdUsuarios + 1)
  {
    if !UserAccepted(f) then Reply(s, Err(Validation))
    else
      var u := User(s.qtdUsuarios, f.nome.value, f.cpf.value, f.idade.value, f.nivel.value);
      Reply(s.(usuarios := s.usuarios + [u], qtdUsuarios := s.qtdUsuarios + 1), Ok(u))
  }

  /** The truthy-skip patch of a user: a falsy or absent field keeps the stored value. */
  function PatchUser(u: User, f: UserFields): (p: User)
    ensures p.id == u.id
    ensures TruthyText(f.nome) ==> p.nome == f.nome.value
    ensures !TruthyText(f.nome) ==> p.nome == u.nome
    ensures TruthyText(f.cpf) ==> p.cpf == f.cpf.value
    ensures !TruthyText(f.cpf) ==> p.cpf == u.cpf
    ensures TruthyNumber(f.idade) ==> p.idade == f.idade.value
    ensures !TruthyNumber(f.idade) ==> p.idade == u.idade
    ensures TruthyNumber(f.nivel) ==> p.nivel == f.nivel.value
    ensures !TruthyNumber(f.nivel) ==> p.nivel == u.nivel
  {
    u.(nome := if TruthyText(f.nome) then f.nome.value else u.nome,
       cpf := if TruthyText(f.cpf) then f.cpf.value else u.cpf,
       idade := if TruthyNumber(f.idade) then f.idade.value else u.idade,
       nivel := if TruthyNumber(f.nivel) then f.nivel.value else u.nivel)
  }

  /** PUT /usuarios/:id: patches the first user with the id; later users sharing it are untouched. */
  function UpdateUser(s: Store, id: int, f: UserFields): (r: Reply<User>)
    ensures r.result.Err? <==> !HasUser(s.usuarios, id)
    ensures r.result.Err? ==> r.result.error == NotFound && r.store == s
    ensures r.result.Ok? ==> r.result.value.id == id
    ensures forall k: nat :: IsFirstUser(s.usuarios, id, k) ==>
      r.result == Ok(PatchUser(s.usuarios[k], f)) && r.store.usuarios == s.usuarios[k := PatchUser(s.usuarios[k], f)]
    ensures r.store == s.(usuarios := r.store.usuarios)
  {
    match FindUser(s.usuarios, id)
    case None => Reply(s, Err(NotFound))
    case Some(k) =>
      var u := PatchUser(s.usuarios[k], f);
      Reply(s.(usuarios := s.usuarios[k := u]), Ok(u))
  }

  /** Repeating a user update is harmless: the second identical PUT patches the
      same user to the same values. */
  lemma UpdateUserTwice(s: Store, id: int, f: UserFields)
    ensures var once := UpdateUser(s, id, f); UpdateUser(once.store, id, f) == once
  {
    match FindUser(s.usuarios, id)
    case None =>
    case Some(k) =>
      var us := UpdateUser(s, id, f).store.usuarios;
      assert IsFirstUser(us, id, k) by {
        forall j | 0 <= j < k ensures us[j].id != id {
          assert us[j] == s.usuarios[j];
        }
      }
      assert PatchUser(PatchUser(s.usuarios[k], f), f) == PatchUser(s.usuarios[k], f);
      assert us[k := PatchUser(us[k], f)] == us;
  }

  /** DELETE /usuarios/:id: removes the first user with the id. Copies lent to that
      user keep pointing at the id. */
  function DeleteUser(s: Store, id: int): (r: Reply<()>)
    ensures r.result.Err? <==> !HasUser(s.usuarios, id)
    ensures r.result.Err? ==> r.result.error == NotFound && r.store == s
    ensures forall k: nat :: IsFirstUser(s.usuarios, id, k) ==> r.store.usuarios == RemoveAt(s.usuarios, k)
    ensures r.store == s.(usuarios := r.store.usuarios)
  {
    match FindUser(s.usuarios, id)
    case None => Reply(s, Err(NotFound))
    case Some(k) => Reply(s.(usuarios := RemoveAt(s.usuarios, k)), Ok(()))
  }

  /** The first user created after start-up gets id 3, which the seed user
      `Pessoa3` already carries; a later update of id 3 patches `Pessoa3` and
      leaves the new user alone. */
  lemma FirstCreatedUserCollides(f: UserFields, g: UserFields)
    requires UserAccepted(f)
    ensures var created := CreateUser(Seed(), f);
      && created.result.value.id == 3
      && Seed().usuarios[2].id == 3
      && var patched := UpdateUser(created.store, 3, g);
         && patched.store.usuarios[2] == PatchUser(Seed().usuarios[2], g)
         && patched.store.usuarios[3] == created.result.value
  {
    var created := CreateUser(Seed(), f);
    var us := created.store.usuarios;
    assert us[0].id == 1 && us[1].id == 2 && us[2].id == 3;
    assert IsFirstUser(us, 3, 2);
  }

  /** Deleting id 3 right after the first creation removes the seed user
      `Pessoa3`, not the user just created, who stays behind under id 3. */
  lemma DeleteAfterCreateHitsSeedUser(f: UserFields)
    requires UserAccepted(f)
    ensures var created := CreateUser(Seed(), f);
      var deleted := DeleteUser(created.store, 3);
      && deleted.result.Ok?
      && deleted.store.usuarios == Seed().usuarios[..2] + [created.result.value]
  {
    var created := CreateUser(Seed(), f);
    var us := created.store.usuarios;
    assert us[0].id == 1 && us[1].id == 2 && us[2].id == 3;
    assert IsFirstUser(us, 3, 2);
    assert RemoveAt(us, 2) == Seed().usuarios[..2] + [created.result.value];
  }

  // ---------------------------------------------------------------------------
  // Libraries

  /** Every field is required and must be truthy, so a capacity of 0 is refused. */
  predicate LibraryAccepted(f: LibraryFields) {
    TruthyText(f.cnpj) && TruthyNumber(f.acervo) && TruthyText(f.cep)
  }

  /** POST /bibliotecas: a new library numbered by the library counter. */
  function CreateLibrary(s: Store, f: LibraryFields): (r: Reply<Library>)
    ensures r.result.Ok? <==> LibraryAccepted(f)
    ensures r.result.Err? ==> r.result.error == Validation && r.store == s
    ensures r.result.Ok? ==> var b := r.result.value;
      && b.id == s.qtdBibliotecas
      && b.cnpj == f.cnpj.value && b.acervo == f.acervo.value && b.cep == f.cep.value
      && r.store == s.(bibliotecas := s.bibliotecas + [b], qtdBibliotecas := s.qtdBibliotecas + 1)
  {
    if !LibraryAccepted(f) then Reply(s, Err(Validation))
    else
      var b := Library(s.qtdBibliotecas, f.cnpj.value, f.acervo.value, f.cep.value);
      Reply(s.(bibliotecas := s.bibliotecas + [b], qtdBibliotecas := s.qtdBibliotecas + 1), Ok(b))
  }

  /** The truthy-skip patch of a library. */
  function PatchLibrary(b: Library, f: LibraryFields): (p: Library)
    ensures p.id == b.id
    ensures TruthyText(f.cnpj) ==> p.cnpj == f.cnpj.value
    ensures !TruthyText(f.cnpj) ==> p.cnpj == b.cnpj
    ensures TruthyNumber(f.acervo) ==> p.acervo == f.acervo.value
    ensures !TruthyNumber(f.acervo) ==> p.acervo == b.acervo
    ensures TruthyText(f.cep) ==> p.cep == f.cep.value
    ensures !TruthyText(f.cep) ==> p.cep == b.cep
  {
    b.(cnpj := if TruthyText(f.cnpj) then f.cnpj.value else b.cnpj,
       acervo := if TruthyNumber(f.acervo) then f.acervo.value else b.acervo,
       cep := if TruthyText(f.cep) then f.cep.value else b.cep)
  }

  /** PUT /bibliotecas/:id: patches the first library with the id. */
  function UpdateLibrary(s: Store, id: int, f: LibraryFields): (r: Reply<Library>)
    ensures r.result.Err? <==> !HasLibrary(s.bibliotecas, id)
    ensures r.result.Err? ==> r.result.error == NotFound && r.store == s
    ensures r.result.Ok? ==> r.result.value.id == id
    ensures forall k: nat :: IsFirstLibrary(s.bibliotecas, id, k) ==>
      r.result == Ok(PatchLibrary(s.bibliotecas[k], f))
      && r.store.bibliotecas == s.bibliotecas[k := PatchLibrary(s.bibliotecas[k], f)]
    ensures r.store == s.(bibliotecas := r.store.bibliotecas)
  {
    match FindLibrary(s.bibliotecas, id)
    case None => Reply(s, Err(NotFound))
    case Some(k) =>
      var b := PatchLibrary(s.bibliotecas[k], f);
      Reply(s.(bibliotecas := s.bibliotecas[k := b]), Ok(b))
  }

  /** Repeating a library update is harmless: the second identical PUT patches
      the same library to the same values. */
  lemma UpdateLibraryTwice(s: Store, id: int, f: LibraryFields)
    ensures var once := UpdateLibrary(s, id, f); UpdateLibrary(once.store, id, f) == once
  {
    match FindLibrary(s.bibliotecas, id)
    case None =>
    case Some(k) =>
      var bs := UpdateLibrary(s, id, f).store.bibliotecas;
      assert IsFirstLibrary(bs, id, k) by {
        forall j | 0 <= j < k ensures bs[j].id != id {
          assert bs[j] == s.bibliotecas[j];
        }
      }
      assert PatchLibrary(PatchLibrary(s.bibliotecas[k], f), f) == PatchLibrary(s.bibliotecas[k], f);
      assert bs[k := PatchLibrary(bs[k], f)] == bs;
  }

  /** DELETE /bibliotecas/:id: removes the first library with the id. Copies held
      by it keep pointing at the id. */
  function DeleteLibrary(s: Store, id: int): (r: Reply<()>)
    ensures r.result.Err? <==> !HasLibrary(s.bibliotecas, id)
    ensures r.result.Err? ==> r.result.error == NotFound && r.store == s
    ensures forall k: nat :: IsFirstLibrary(s.bibliotecas, id, k) ==> r.store.bibliotecas == RemoveAt(s.bibliotecas, k)
    ensures r.store == s.(bibliotecas := r.store.bibliotecas)
  {
    match FindLibrary(s.bibliotecas, id)
    case None => Reply(s, Err(NotFound))
    case Some(k) => Reply(s.(bibliotecas := RemoveAt(s.bibliotecas, k)), Ok(()))
  }

  /** Creating a library appends one above every library id, below the bumped counter. */
  lemma CreateLibraryPreserves(s: Store, f: LibraryFields)
    requires Valid(s)
    ensures Valid(CreateLibrary(s, f).store)
    ensures Consistent(s) ==> Consistent(CreateLibrary(s, f).store)
  {
    var created := CreateLibrary(s, f).store;
    if LibraryAccepted(f) {
      AppendIncreasing(s.bibliotecas, [created.bibliotecas[|s.bibliotecas|]], LibraryId, s.qtdBibliotecas);
    }
  }

  /** Patching a library keeps its id, so the library ids stay ordered. */
  lemma UpdateLibraryPreserves(s: Store, id: int, f: LibraryFields)
    requires Valid(s)
    ensures Valid(UpdateLibrary(s, id, f).store)
    ensures Consistent(s) ==> Consistent(UpdateLibrary(s, id, f).store)
  {
    match FindLibrary(s.bibliotecas, id)
    case None =>
    case Some(k) =>
      var patched := UpdateLibrary(s, id, f).store;
      UpdateIncreasing(s.bibliotecas, k, patched.bibliotecas[k], LibraryId);
      forall x | x in patched.bibliotecas ensures 0 <= LibraryId(x) < patched.qtdBibliotecas {
        var j :| 0 <= j < |patched.bibliotecas| && patched.bibliotecas[j] == x;
        assert s.bibliotecas[j] in s.bibliotecas;
      }
  }

  /** Deleting a library splices it out; copies keep their library references,
      which neither invariant constrains. */
  lemma DeleteLibraryPreserves(s: Store, id: int)
    requires Valid(s)
    ensures Valid(DeleteLibrary(s, id).store)
    ensures Consistent(s) ==> Consistent(DeleteLibrary(s, id).store)
  {
    match FindLibrary(s.bibliotecas, id)
    case None =>
    case Some(k) =>
      RemoveAtIncreasing(s.bibliotecas, k, LibraryId);
      RemoveAtSubset(s.bibliotecas, k);
  }

  /** The user handlers touch only the users and their counter, so both invariants survive. */
  lemma CreateUserPreserves(s: Store, f: UserFields)
    requires Valid(s)
    ensures Valid(CreateUser(s, f).store)
    ensures Consistent(s) ==> Consistent(CreateUser(s, f).store)
  {
  }

  lemma UpdateUserPreserves(s: Store, id: int, f: UserFields)
    requires Valid(s)
    ensures Valid(UpdateUser(s, id, f).store)
    ensures Consistent(s) ==> Consistent(UpdateUser(s, id, f).store)
  {
  }

  lemma DeleteUserPreserves(s: Store, id: int)
    requires Valid(s)
    ensures Valid(DeleteUser(s, id).store)
    ensures Consistent(s) ==> Consistent(DeleteUser(s, id).store)
  {
  }
}

=== FILE: scenarios.dfy ===
/** Concrete request sequences on the seed data and on any store, worked through
    the model. */
module Scenarios {
  import opened Wrappers
  import opened Seqs
  import opened Ledger
  import opened Titles
  import opened Registry

  function QuantityOnly(q: int): TitleFields {
    TitleFields(None, None, None, Some(q), None)
  }

  lemma SeedShrinkAccepted()
    ensures FindTitle(Seed().livros, 0) == Some(0)
    ensures var r := UpdateTitle(Seed(), 0, QuantityOnly(7));
      && r.result.Ok? && r.result.value.quantidade == 7
      && r.store.acervo == RemoveEach(Seed().acervo, AvailableOf(Seed().acervo, 0)[..3])
      && r.store.livros == Seed().livros[0 := r.result.value]
      && r.store.qtdAcervo == Seed().qtdAcervo && r.store.bibliotecas == Seed().bibliotecas
  {
    SeedCopies();
    SeedAvailable();
    assert FindTitle(Seed().livros, 0) == Some(0);
    UpdateTitleShrinks(Seed(), 0, QuantityOnly(7), 0);
  }

  lemma SeedDropThree()
    ensures var cs := Seed().acervo; DropAvailable(cs, 0, 3) == [Copy(0, 0, 0, 1)] + cs[4..]
  {
    var cs := Seed().acervo;
    SeedCopies();
    assert cs[1..][1..][1..][1..] == cs[4..];
  }

  /** Shrinking the seed title from 10 to 7 removes copies 1, 2 and 3: copy 0 is on
      loan, so it is skipped and the first three available copies go. */
  lemma SeedShrinkToSeven()
    ensures var r := UpdateTitle(Seed(), 0, QuantityOnly(7));
      && r.result.Ok? && r.result.value.quantidade == 7
      && r.store.acervo == [Copy(0, 0, 0, 1)] + Seed().acervo[4..]
      && CountOf(r.store.acervo, 0) == 7
  {
    var cs := Seed().acervo;
    SeedShrinkAccepted();
    SeedValid();
    SeedAvailable();
    ReclaimIsDrop(cs, 0, 3);
    SeedDropThree();
    SeedConsistent();
    assert CountOf(cs, 0) == 10 by { assert Seed().livros[0].id == 0; }
    DropAvailableSpec(cs, 0, 3);
  }

  /** Growing the seed title (at quantity 7, after the shrink) to 20 without naming a
      library adds 13 available copies, ids 10 to 22, at library 0, the first library. */
  lemma SeedGrowToTwenty()
    ensures var s1 := UpdateTitle(Seed(), 0, QuantityOnly(7)).store;
      var r := UpdateTitle(s1, 0, QuantityOnly(20));
      && r.result.Ok? && r.result.value.quantidade == 20
      && |r.store.acervo| == 20
      && (forall i :: 7 <= i < 20 ==> r.store.acervo[i] == Copy(i + 3, 0, 0, Available))
      && r.store.qtdAcervo == 23
  {
    var s1 := UpdateTitle(Seed(), 0, QuantityOnly(7)).store;
    SeedAfterShrink();
    SeedGrowAccepted(s1);
  }

  /** The store after the shrink, in the terms the growth step needs. */
  lemma SeedAfterShrink()
    ensures var s1 := UpdateTitle(Seed(), 0, QuantityOnly(7)).store;
      && |s1.acervo| == 7 && s1.qtdAcervo == 10
      && |s1.livros| == 1 && s1.livros[0].id == 0 && s1.livros[0].quantidade == 7
      && |s1.bibliotecas| == 1 && s1.bibliotecas[0].id == 0
  {
    SeedShrinkAccepted();
    SeedShrinkToSeven();
    assert |Seed().acervo| == 10 && |Seed().livros| == 1 && |Seed().bibliotecas| == 1;
  }

  lemma SeedGrowAccepted(s1: Store)
    requires |s1.acervo| == 7 && s1.qtdAcervo == 10
    requires |s1.livros| == 1 && s1.livros[0].id == 0 && s1.livros[0].quantidade == 7
    requires |s1.bibliotecas| == 1 && s1.bibliotecas[0].id == 0
    ensures var r := UpdateTitle(s1, 0, QuantityOnly(20));
      && r.result.Ok? && r.result.value.quantidade == 20
      && |r.store.acervo| == 20
      && (forall i :: 7 <= i < 20 ==> r.store.acervo[i] == Copy(i + 3, 0, 0, Available))
      && r.store.qtdAcervo == 23
  {
    assert FindTitle(s1.livros, 0) == Some(0);
    UpdateTitleGrows(s1, 0, QuantityOnly(20), 0);
  }

  /** Deleting the seed title takes all ten copies with it, the borrowed one
      included; users and libraries stay. */
  lemma SeedDeleteTitle()
    ensures var r := DeleteTitle(Seed(), 0);
      && r.result.Ok?
      && r.store.acervo == []
      && r.store.usuarios == Seed().usuarios && r.store.bibliotecas == Seed().bibliotecas
  {
    SeedCopies();
    assert Seed().livros[0].id == 0;
    FilterNone(Seed().acervo, (c: Copy) => c.idlivro != 0);
  }

  /** An empty name in a user update is falsy, so the stored name stays. */
  lemma EmptyNameSkipped()
    ensures var r := UpdateUser(Seed(), 1, UserFields(Some(""), None, None, None));
      && r.result.Ok? && r.store.usuarios == Seed().usuarios
  {
    var us := Seed().usuarios;
    assert IsFirstUser(us, 1, 0);
    assert us[0 := PatchUser(us[0], UserFields(Some(""), None, None, None))] == us;
  }

  /** Create two titles of one copy each, delete the first, create a third: the
      third title's copy does not reuse the deleted copy's id, on any store. */
  lemma CopyIdNotReused(s: Store, a: TitleFields, b: TitleFields, c: TitleFields)
    requires CreateAccepted(a) && a.quantidade == Some(1)
    requires CreateAccepted(b) && b.quantidade == Some(1)
    requires CreateAccepted(c) && c.quantidade == Some(1)
    ensures var ra := CreateTitle(s, a);
      var rb := CreateTitle(ra.store, b);
      var rd := DeleteTitle(rb.store, ra.result.value.id);
      var rc := CreateTitle(rd.store, c);
      && rd.result.Ok?
      && ra.store.acervo[|s.acervo|].id == s.qtdAcervo
      && rc.store.acervo[|rc.store.acervo| - 1].id == s.qtdAcervo + 2
  {
    var ra := CreateTitle(s, a);
    CreateTitleAllocates(s, a);
    var rb := CreateTitle(ra.store, b);
    CreateTitleAllocates(ra.store, b);
    assert rb.store.livros[|s.livros|] == ra.result.value;
    var rd := DeleteTitle(rb.store, ra.result.value.id);
    CreateTitleAllocates(rd.store, c);
  }
}

=== FILE: seqs.dfy ===
/** Sequence operations the handlers rely on: `Array.prototype.filter`,
    `findIndex`, one-element `splice`, and the id-ordering facts they keep. */
module Seqs {
  import opened Wrappers

  /** `s.filter(p)`: the elements satisfying `p`, in their original order. */
  function Filter<T(!new)>(s: seq<T>, p: T -> bool): (r: seq<T>)
    ensures |r| <= |s|
    ensures forall x :: x in r <==> x in s && p(x)
    decreases |s|
  {
    if |s| == 0 then []
    else if p(s[0]) then [s[0]] + Filter(s[1..], p)
    else Filter(s[1..], p)
  }

  /** `s.findIndex(p)`: the first index whose element satisfies `p`, if any. */
  function IndexWhere<T(!new)>(s: seq<T>, p: T -> bool): (r: Option<nat>)
    ensures r.Some? ==> r.value < |s| && p(s[r.value])
    ensures r.Some? ==> forall j :: 0 <= j < r.value ==> !p(s[j])
    ensures r.None? <==> forall j :: 0 <= j < |s| ==> !p(s[j])
    decreases |s|
  {
    if |s| == 0 then None
    else if p(s[0]) then Some(0)
    else match IndexWhere(s[1..], p)
      case None => None
      case Some(k) => Some(k + 1)
  }

  /** `s.splice(k, 1)`: the sequence without its element at index `k`. */
  function RemoveAt<T(!new)>(s: seq<T>, k: nat): (r: seq<T>)
    requires k < |s|
    ensures |r| == |s| - 1
    ensures forall i :: 0 <= i < k ==> r[i] == s[i]
    ensures forall i :: k <= i < |r| ==> r[i] == s[i + 1]
  {
    s[..k] + s[k + 1..]
  }

  /** The keys of `s` strictly increase along the sequence (so they are pairwise distinct). */
  ghost predicate Increasing<T(!new)>(s: seq<T>, key: T -> int) {
    forall i, j :: 0 <= i < j < |s| ==> key(s[i]) < key(s[j])
  }

  /** Every key of `s` lies in `[0, bound)`. */
  ghost predicate KeysBelow<T(!new)>(s: seq<T>, key: T -> int, bound: int) {
    forall x :: x in s ==> 0 <= key(x) < bound
  }

  lemma FilterConcat<T(!new)>(a: seq<T>, b: seq<T>, p: T -> bool)
    ensures Filter(a + b, p) == Filter(a, p) + Filter(b, p)
    decreases |a|
  {
    if |a| > 0 {
      assert (a + b)[1..] == a[1..] + b;
      FilterConcat(a[1..], b, p);
    } else {
      assert a + b == b;
    }
  }

  lemma FilterAll<T(!new)>(s: seq<T>, p: T -> bool)
    requires forall x :: x in s ==> p(x)
    ensures Filter(s, p) == s
    decreases |s|
  {
    if |s| > 0 {
      FilterAll(s[1..], p);
      assert [s[0]] + s[1..] == s;
    }
  }

  lemma FilterNone<T(!new)>(s: seq<T>, p: T -> bool)
    requires forall x :: x in s ==> !p(x)
    ensures Filter(s, p) == []
  {
  }

  /** Filtering by `q` after filtering by a weaker `p` is filtering by `q` alone. */
  lemma FilterFilter<T(!new)>(s: seq<T>, p: T -> bool, q: T -> bool)
    requires forall x :: q(x) ==> p(x)
    ensures Filter(Filter(s, p), q) == Filter(s, q)
    decreases |s|
  {
    if |s| > 0 {
      FilterFilter(s[1..], p, q);
      if p(s[0]) {
        assert ([s[0]] + Filter(s[1..], p))[1..] == Filter(s[1..], p);
      }
    }
  }

  /** Replacing one element by another that `p` judges alike keeps the filtered length. */
  lemma FilterUpdateLength<T(!new)>(s: seq<T>, k: nat, x: T, p: T -> bool)
    requires k < |s|
    requires p(x) == p(s[k])
    ensures |Filter(s[k := x], p)| == |Filter(s, p)|
    decreases |s|
  {
    if k > 0 {
      assert s[k := x][1..] == s[1..][k - 1 := x];
      FilterUpdateLength(s[1..], k - 1, x, p);
    } else {
      assert s[k := x][1..] == s[1..];
    }
  }

  lemma ConsIncreasing<T(!new)>(x: T, s: seq<T>, key: T -> int)
    requires Increasing(s, key)
    requires forall y :: y in s ==> key(x) < key(y)
    ensures Increasing([x] + s, key)
  {
    var r := [x] + s;
    forall i, j | 0 <= i < j < |r|
      ensures key(r[i]) < key(r[j])
    {
      assert r[j] == s[j - 1];
      if i > 0 {
        assert r[i] == s[i - 1];
      } else {
        assert s[j - 1] in s;
      }
    }
  }

  /** Dropping the first element keeps a sequence increasing. */
  lemma TailIncreasing<T(!new)>(s: seq<T>, key: T -> int)
    requires |s| > 0 && Increasing(s, key)
    ensures Increasing(s[1..], key)
  {
    var rest := s[1..];
    forall i, j | 0 <= i < j < |rest| ensures key(rest[i]) < key(rest[j]) {
      assert rest[i] == s[i + 1] && rest[j] == s[j + 1];
    }
  }

  lemma {:induction false} FilterIncreasing<T(!new)>(s: seq<T>, p: T -> bool, key: T -> int)
    requires Increasing(s, key)
    ensures Increasing(Filter(s, p), key)
    decreases |s|
  {
    if |s| > 0 {
      var rest := s[1..];
      TailIncreasing(s, key);
      FilterIncreasing(rest, p, key);
      if p(s[0]) {
        forall y | y in Filter(rest, p) ensures key(s[0]) < key(y) {
          var j :| 0 <= j < |rest| && rest[j] == y;
          assert s[j + 1] == y;
        }
        ConsIncreasing(s[0], Filter(rest, p), key);
      }
    }
  }

  /** Appending keys that all exceed the existing ones keeps a sequence increasing. */
  lemma AppendIncreasing<T(!new)>(a: seq<T>, b: seq<T>, key: T -> int, bound: int)
    requires Increasing(a, key) && KeysBelow(a, key, bound)
    requires Increasing(b, key)
    requires forall y :: y in b ==> bound <= key(y)
    ensures Increasing(a + b, key)
  {
    var r := a + b;
    forall i, j | 0 <= i < j < |r|
      ensures key(r[i]) < key(r[j])
    {
      if j < |a| {
        assert r[i] == a[i] && r[j] == a[j];
      } else if i < |a| {
        assert r[i] == a[i] && a[i] in a;
        assert r[j] == b[j - |a|] && b[j - |a|] in b;
      } else {
        assert r[i] == b[i - |a|] && r[j] == b[j - |a|];
      }
    }
  }

  lemma RemoveAtIncreasing<T(!new)>(s: seq<T>, k: nat, key: T -> int)
    requires k < |s| && Increasing(s, key)
    ensures Increasing(RemoveAt(s, k), key)
  {
    var r := RemoveAt(s, k);
    forall i, j | 0 <= i < j < |r|
      ensures key(r[i]) < key(r[j])
    {
      var i' := if i < k then i else i + 1;
      var j' := if j < k then j else j + 1;
      assert r[i] == s[i'] && r[j] == s[j'];
    }
  }

  lemma RemoveAtSubset<T(!new)>(s: seq<T>, k: nat)
    requires k < |s|
    ensures forall x :: x in RemoveAt(s, k) ==> x in s
  {
    forall x | x in RemoveAt(s, k) ensures x in s {
      var i :| 0 <= i < |RemoveAt(s, k)| && RemoveAt(s, k)[i] == x;
      if i < k { assert s[i] == x; } else { assert s[i + 1] == x; }
    }
  }

  /** Replacing an element by one with the same key keeps a sequence increasing. */
  lemma UpdateIncreasing<T(!new)>(s: seq<T>, k: nat, x: T, key: T -> int)
    requires k < |s| && Increasing(s, key)
    requires key(x) == key(s[k])
    ensures Increasing(s[k := x], key)
  {
    var r := s[k := x];
    forall i, j | 0 <= i < j < |r|
      ensures key(r[i]) < key(r[j])
    {
      assert key(r[i]) == key(s[i]) && key(r[j]) == key(s[j]);
    }
  }
}

=== FILE: tags.dfy ===
/** Tag normalisation of the title handlers: a request may carry the tags as a
    list or as one comma-joined string, which is split on ','. The detail view
    joins the stored list back with ','. */
module Tags {
  import opened Wrappers

  const Comma: char := ','

  /** The two shapes a `tags` request field takes. */
  datatype TagsInput = TagList(tags: seq<string>) | TagText(text: string)

  predicate NoComma(s: string) {
    forall i :: 0 <= i < |s| ==> s[i] != Comma
  }

  /** JavaScript truthiness of an optional `tags` field: an array is truthy even
      when empty, a string only when non-empty. */
  predicate TruthyTags(f: Option<TagsInput>) {
    f.Some? && (f.value.TagList? || f.value.text != "")
  }

  /** `text.split(',')`: the comma-free pieces between commas, always at least one. */
  function Split(text: string): (pieces: seq<string>)
    ensures |pieces| >= 1
    ensures forall i :: 0 <= i < |pieces| ==> NoComma(pieces[i])
    decreases |text|
  {
    if |text| == 0 then [""]
    else if text[0] == Comma then [""] + Split(text[1..])
    else
      var rest := Split(text[1..]);
      [[text[0]] + rest[0]] + rest[1..]
  }

  /** The number of commas in `s`. */
  function Commas(s: string): nat
    decreases |s|
  {
    if |s| == 0 then 0 else (if s[0] == Comma then 1 else 0) + Commas(s[1..])
  }

  lemma {:induction false} CommasConcat(a: string, b: string)
    ensures Commas(a + b) == Commas(a) + Commas(b)
    decreases |a|
  {
    if |a| == 0 {
      assert a + b == b;
    } else {
      assert (a + b)[0] == a[0] && (a + b)[1..] == a[1..] + b;
      CommasConcat(a[1..], b);
    }
  }

  lemma {:induction false} CommaFreePiece(piece: string)
    ensures NoComma(piece) ==> Commas(piece) == 0
    decreases |piece|
  {
    if |piece| > 0 {
      CommaFreePiece(piece[1..]);
    }
  }

  /** `pieces.join(',')`: a comma between each two pieces, so comma-free pieces
      give exactly one comma fewer than there are pieces. */
  function Join(pieces: seq<string>): (text: string)
    ensures (forall i :: 0 <= i < |pieces| ==> NoComma(pieces[i])) ==>
      Commas(text) == if |pieces| == 0 then 0 else |pieces| - 1
    decreases |pieces|
  {
    if |pieces| == 0 then ""
    else if |pieces| == 1 then CommaFreePiece(pieces[0]); pieces[0]
    else
      var rest := Join(pieces[1..]);
      CommaFreePiece(pieces[0]);
      CommasConcat(pieces[0] + [Comma], rest);
      CommasConcat(pieces[0], [Comma]);
      assert Commas([Comma]) == 1;
      assert (forall i :: 0 <= i < |pieces| ==> NoComma(pieces[i])) ==>
        forall i :: 0 <= i < |pieces[1..]| ==> NoComma(pieces[1..][i]);
      pieces[0] + [Comma] + rest
  }

  /** `Array.isArray(tags) ? tags : tags.split(',')`. */
  function Normalize(input: TagsInput): (tags: seq<string>)
    ensures input.TagList? ==> tags == input.tags
    ensures input.TagText? ==> |tags| >= 1 && Join(tags) == input.text
    ensures input.TagText? ==> forall i :: 0 <= i < |tags| ==> NoComma(tags[i])
  {
    match input
    case TagList(l) => l
    case TagText(t) => JoinSplit(t); Split(t)
  }

  /** Splitting a string and joining the pieces gives the string back. */
  lemma {:induction false} JoinSplit(text: string)
    ensures Join(Split(text)) == text
    decreases |text|
  {
    if |text| > 0 {
      var rest := Split(text[1..]);
      JoinSplit(text[1..]);
      if text[0] == Comma {
        assert ([""] + rest)[1..] == rest;
        assert text == [Comma] + text[1..];
      } else {
        var r := [[text[0]] + rest[0]] + rest[1..];
        assert r[1..] == rest[1..];
        if |rest| == 1 {
          assert text == [text[0]] + text[1..];
        } else {
          assert text == [text[0]] + (rest[0] + [Comma] + Join(rest[1..]));
        }
      }
    }
  }

  lemma {:induction false} SplitCommaFree(text: string)
    requires NoComma(text)
    ensures Split(text) == [text]
    decreases |text|
  {
    if |text| > 0 {
      SplitCommaFree(text[1..]);
      assert [text[0]] + text[1..] == text;
    }
  }

  lemma {:induction false} SplitAfterPiece(piece: string, tail: string)
    requires NoComma(piece)
    ensures Split(piece + [Comma] + tail) == [piece] + Split(tail)
    decreases |piece|
  {
    var whole := piece + [Comma] + tail;
    if |piece| == 0 {
      assert whole[1..] == tail;
    } else {
      assert whole[1..] == piece[1..] + [Comma] + tail;
      SplitAfterPiece(piece[1..], tail);
      assert [piece[0]] + piece[1..] == piece;
    }
  }

  /** Joining comma-free pieces and splitting the result gives the pieces back;
      an empty list does not survive, since `"".split(',')` is `[""]`. */
  lemma {:induction false} SplitJoin(pieces: seq<string>)
    requires |pieces| >= 1
    requires forall i :: 0 <= i < |pieces| ==> NoComma(pieces[i])
    ensures Split(Join(pieces)) == pieces
    decreases |pieces|
  {
    if |pieces| == 1 {
      SplitCommaFree(pieces[0]);
    } else {
      SplitJoin(pieces[1..]);
      SplitAfterPiece(pieces[0], Join(pieces[1..]));
      assert [pieces[0]] + pieces[1..] == pieces;
    }
  }
}

=== FILE: titles.dfy ===
/** The title handlers (POST/PUT/DELETE on `/livros`) and the reconciliation
    that keeps each title's copies in step with its `quantidade`. */
module Titles {
  import opened Wrappers
  import opened Seqs
  import opened Tags
  import opened Ledger

  /** The body of a title request; every field may be absent. */
  datatype TitleFields = TitleFields(
    nome: Option<string>,
    categoria: Option<string>,
    tags: Option<TagsInput>,
    quantidade: Option<int>,
    idbiblioteca: Option<int>)

  /** `n` new available copies of `title` at `library`, numbered from `start`,
      as the allocation loops push them. */
  function NewCopies(start: nat, n: nat, title: int, library: int): (cs: seq<Copy>)
    ensures |cs| == n
    ensures Increasing(cs, CopyId)
    ensures forall c :: c in cs ==> start <= c.id < start + n
    ensures forall c :: c in cs ==> IsAvailableCopyOf(c, title) && c.idbiblioteca == library
  {
    seq(n, i requires 0 <= i < n => Copy(start + i, title, library, Available))
  }

  /** The new copies of a title are all copies of it, and of no other title. */
  lemma NewCopiesCounted(start: nat, n: nat, title: int, library: int, other: int)
    ensures CopiesOf(NewCopies(start, n, title, library), title) == NewCopies(start, n, title, library)
    ensures other != title ==> CopiesOf(NewCopies(start, n, title, library), other) == []
  {
    FilterAll(NewCopies(start, n, title, library), (c: Copy) => IsCopyOf(c, title));
    if other != title {
      FilterNone(NewCopies(start, n, title, library), (c: Copy) => IsCopyOf(c, other));
    }
  }

  function FindTitle(ts: seq<Title>, id: int): (k: Option<nat>)
    ensures k.Some? ==> k.value < |ts| && ts[k.value].id == id
    ensures k.Some? ==> forall j :: 0 <= j < k.value ==> ts[j].id != id
    ensures k.None? <==> !HasTitle(ts, id)
  {
    IndexWhere(ts, (t: Title) => t.id == id)
  }

  /** Replacing the title `FindTitle` found by one with the same id leaves the
      lookup where it was. */
  lemma FindTitleAfterReplace(ts: seq<Title>, id: int, k: nat, t: Title)
    requires FindTitle(ts, id) == Some(k) && t.id == id
    ensures FindTitle(ts[k := t], id) == Some(k)
  {
    var ts' := ts[k := t];
    assert ts'[k].id == id;
    forall i | 0 <= i < k ensures ts'[i].id != id {
      assert ts'[i] == ts[i];
    }
  }

  // ---------------------------------------------------------------------------
  // POST /livros/new

  /** The presence checks of title creation: `nome`, `categoria` and `tags` must
      be truthy, `quantidade_total` and `idbiblioteca` merely present (0 passes). */
  predicate CreateAccepted(f: TitleFields) {
    TruthyText(f.nome) && TruthyText(f.categoria) && TruthyTags(f.tags)
    && f.quantidade.Some? && f.idbiblioteca.Some?
  }

  /** Creates a title with the next title id and allocates one available copy per
      unit of quantity. A negative quantity is stored as given and allocates nothing. */
  function CreateTitle(s: Store, f: TitleFields): (r: Reply<Title>)
    ensures r.result.Ok? <==> CreateAccepted(f)
    ensures r.result.Err? ==> r.result.error == Validation && r.store == s
    ensures r.result.Ok? ==> r.result.value.id == s.qtdLivros && r.store.livros == s.livros + [r.result.value]
    ensures r.result.Ok? ==> var q := f.quantidade.value;
      && r.result.value == Title(s.qtdLivros, f.nome.value, f.categoria.value, Normalize(f.tags.value), q)
      && |r.store.acervo| == |s.acervo| + (if q > 0 then q else 0)
      && r.store.acervo[..|s.acervo|] == s.acervo
    ensures r.store.usuarios == s.usuarios && r.store.bibliotecas == s.bibliotecas
    ensures r.store.qtdUsuarios == s.qtdUsuarios && r.store.qtdBibliotecas == s.qtdBibliotecas
  {
    if !CreateAccepted(f) then Reply(s, Err(Validation))
    else
      var q := f.quantidade.value;
      var n: nat := if q > 0 then q else 0;
      var title := Title(s.qtdLivros, f.nome.value, f.categoria.value, Normalize(f.tags.value), q);
      var copies := NewCopies(s.qtdAcervo, n, title.id, f.idbiblioteca.value);
      Reply(
        s.(livros := s.livros + [title], acervo := s.acervo + copies,
           qtdLivros := s.qtdLivros + 1, qtdAcervo := s.qtdAcervo + n),
        Ok(title))
  }

  /** A complete request with quantity q >= 0 appends exactly q available copies of
      the new title at the requested library, numbered on from the copy counter,
      and leaves the existing copies as they were. */
  lemma CreateTitleAllocates(s: Store, f: TitleFields)
    requires CreateAccepted(f) && f.quantidade.value >= 0
    ensures var r := CreateTitle(s, f); var q := f.quantidade.value;
      && r.result.Ok?
      && r.result.value == Title(s.qtdLivros, f.nome.value, f.categoria.value, Normalize(f.tags.value), q)
      && |r.store.acervo| == |s.acervo| + q
      && r.store.acervo[..|s.acervo|] == s.acervo
      && (forall i :: |s.acervo| <= i < |r.store.acervo| ==>
            r.store.acervo[i] == Copy(s.qtdAcervo + (i - |s.acervo|), s.qtdLivros, f.idbiblioteca.value, Available))
      && r.store.qtdAcervo == s.qtdAcervo + q
      && r.store.qtdLivros == s.qtdLivros + 1
  {
    var r := CreateTitle(s, f);
    assert r.store.acervo[..|s.acervo|] == s.acervo;
  }

  /** Creation keeps the id discipline; with a non-negative quantity it also keeps
      every title's copy count, while a negative quantity breaks it. */
  lemma CreateTitlePreserves(s: Store, f: TitleFields)
    requires Valid(s)
    ensures Valid(CreateTitle(s, f).store)
    ensures Consistent(s) && f.quantidade.Some? && f.quantidade.value >= 0 ==> Consistent(CreateTitle(s, f).store)
    ensures CreateAccepted(f) && f.quantidade.value < 0 ==> !Consistent(CreateTitle(s, f).store)
  {
    var r := CreateTitle(s, f);
    if CreateAccepted(f) {
      var q := f.quantidade.value;
      var n: nat := if q > 0 then q else 0;
      var t := r.result.value;
      AppendTitleValid(s, r.store, t, n, f.idbiblioteca.value);
      if q < 0 {
        assert r.store.livros[|s.livros|] == t;
      }
    }
  }

  /** Appending a title with the next title id and `n` new copies of it keeps both
      invariants, the count one when the title declares `n` copies. */
  lemma AppendTitleValid(s: Store, s': Store, t: Title, n: nat, lib: int)
    requires Valid(s) && t.id == s.qtdLivros
    requires s'.livros == s.livros + [t] && s'.qtdLivros == s.qtdLivros + 1
    requires s'.acervo == s.acervo + NewCopies(s.qtdAcervo, n, t.id, lib) && s'.qtdAcervo == s.qtdAcervo + n
    requires s'.bibliotecas == s.bibliotecas && s'.qtdBibliotecas == s.qtdBibliotecas
    ensures Valid(s')
    ensures Consistent(s) && t.quantidade == n ==> Consistent(s')
  {
    var added := NewCopies(s.qtdAcervo, n, t.id, lib);
    AppendIncreasing(s.livros, [t], TitleId, s.qtdLivros);
    AppendIncreasing(s.acervo, added, CopyId, s.qtdAcervo);
    forall c | c in s'.acervo ensures HasTitle(s'.livros, c.idlivro) {
      if c in s.acervo {
        var j :| 0 <= j < |s.livros| && s.livros[j].id == c.idlivro;
        assert s'.livros[j] == s.livros[j];
      } else {
        assert s'.livros[|s.livros|] == t;
      }
    }
    if Consistent(s) && t.quantidade == n {
      AppendTitleConsistent(s, s', t, n, lib);
    }
  }

  /** The count half of `AppendTitleValid`: old titles keep their copies and the
      new title has exactly its `n` new ones. */
  lemma AppendTitleConsistent(s: Store, s': Store, t: Title, n: nat, lib: int)
    requires Valid(s) && Consistent(s) && t.id == s.qtdLivros && t.quantidade == n
    requires s'.livros == s.livros + [t]
    requires s'.acervo == s.acervo + NewCopies(s.qtdAcervo, n, t.id, lib)
    ensures Consistent(s')
  {
    var added := NewCopies(s.qtdAcervo, n, t.id, lib);
    forall i | 0 <= i < |s'.livros|
      ensures CountOf(s'.acervo, s'.livros[i].id) == s'.livros[i].quantidade
    {
      var id := s'.livros[i].id;
      FilterConcat(s.acervo, added, (c: Copy) => IsCopyOf(c, id));
      NewCopiesCounted(s.qtdAcervo, n, t.id, lib, id);
      if i < |s.livros| {
        assert s'.livros[i] == s.livros[i] && s.livros[i] in s.livros;
      } else {
        assert s'.livros[i] == t;
        NoCopiesOfUnissued(s, id);
      }
    }
  }

  // ---------------------------------------------------------------------------
  // PUT /livros/:id

  /** The truthy-skip edits of `nome`, `categoria` and `tags`: a falsy or absent
      field keeps the stored value. The id and quantity are untouched. */
  function EditTitle(t: Title, f: TitleFields): (e: Title)
    ensures e.id == t.id && e.quantidade == t.quantidade
    ensures TruthyText(f.nome) ==> e.nome == f.nome.value
    ensures !TruthyText(f.nome) ==> e.nome == t.nome
    ensures TruthyText(f.categoria) ==> e.categoria == f.categoria.value
    ensures !TruthyText(f.categoria) ==> e.categoria == t.categoria
    ensures TruthyTags(f.tags) ==> e.tags == Normalize(f.tags.value)
    ensures !TruthyTags(f.tags) ==> e.tags == t.tags
  {
    t.(nome := if TruthyText(f.nome) then f.nome.value else t.nome,
       categoria := if TruthyText(f.categoria) then f.categoria.value else t.categoria,
       tags := if TruthyTags(f.tags) then Normalize(f.tags.value) else t.tags)
  }

  /** The library of copies added by growing a title: the requested one, else the
      first library's id, else 0. */
  function GrowthLibrary(s: Store, f: TitleFields): (lib: int)
    ensures f.idbiblioteca.Some? ==> lib == f.idbiblioteca.value
    ensures f.idbiblioteca.None? && |s.bibliotecas| > 0 ==> lib == s.bibliotecas[0].id
    ensures f.idbiblioteca.None? && |s.bibliotecas| == 0 ==> lib == 0
  {
    if f.idbiblioteca.Some? then f.idbiblioteca.value
    else if |s.bibliotecas| > 0 then s.bibliotecas[0].id
    else 0
  }

  /** Drops the first copy whose id is `id`, as `findIndex` followed by `splice(idx, 1)`:
      the first copy with the id goes and the rest keep their order; with no such
      copy nothing changes. */
  function RemoveFirstWithId(cs: seq<Copy>, id: int): (r: seq<Copy>)
    ensures forall k: nat :: k < |cs| && cs[k].id == id && (forall j :: 0 <= j < k ==> cs[j].id != id) ==>
      r == RemoveAt(cs, k)
    ensures (exists j :: 0 <= j < |cs| && cs[j].id == id) ==> |r| == |cs| - 1
    ensures (forall j :: 0 <= j < |cs| ==> cs[j].id != id) ==> r == cs
    ensures forall c :: c in r ==> c in cs
  {
    match IndexWhere(cs, (c: Copy) => c.id == id)
    case None => cs
    case Some(k) => RemoveAtSubset(cs, k); RemoveAt(cs, k)
  }

  /** The reclaim loop as written: for each victim in turn, look its id up and splice
      it out. Each victim removes at most one copy and nothing new appears. */
  function RemoveEach(cs: seq<Copy>, victims: seq<Copy>): (r: seq<Copy>)
    ensures forall c :: c in r ==> c in cs
    ensures |cs| - |victims| <= |r| <= |cs|
    decreases |victims|
  {
    if |victims| == 0 then cs
    else RemoveEach(RemoveFirstWithId(cs, victims[0].id), victims[1..])
  }

  /** The intended reclaim: drop the first `k` available copies of `title` in list
      order and keep everything else in place. */
  function DropAvailable(cs: seq<Copy>, title: int, k: nat): seq<Copy>
    decreases |cs|
  {
    if k == 0 || |cs| == 0 then cs
    else if IsAvailableCopyOf(cs[0], title) then DropAvailable(cs[1..], title, k - 1)
    else [cs[0]] + DropAvailable(cs[1..], title, k)
  }

  /** Edits the stored fields, then reconciles the copies with the new quantity.
      Growing appends added copies; shrinking removes available copies all or
      nothing. On the insufficient-copies error the quantity is restored but the
      `nome`/`categoria`/`tags` edits have already been made and stay. */
  function UpdateTitle(s: Store, id: int, f: TitleFields): (r: Reply<Title>)
    ensures (r.result.Err? && r.result.error == NotFound) <==> !HasTitle(s.livros, id)
    ensures r.result.Err? ==> r.result.error in {NotFound, InsufficientCopies}
    ensures r.result.Err? && r.result.error == NotFound ==> r.store == s
    ensures r.result.Err? ==> r.store.acervo == s.acervo && r.store.qtdAcervo == s.qtdAcervo
    ensures r.result.Ok? ==> r.result.value.id == id
    ensures r.store.usuarios == s.usuarios && r.store.bibliotecas == s.bibliotecas
    ensures r.store.qtdUsuarios == s.qtdUsuarios && r.store.qtdBibliotecas == s.qtdBibliotecas
    ensures r.store.qtdLivros == s.qtdLivros && |r.store.livros| == |s.livros|
    ensures r.store.qtdAcervo >= s.qtdAcervo
  {
    match FindTitle(s.livros, id)
    case None => Reply(s, Err(NotFound))
    case Some(k) =>
      var edited := EditTitle(s.livros[k], f);
      if f.quantidade.None? then Reply(s.(livros := s.livros[k := edited]), Ok(edited))
      else
        var q := f.quantidade.value;
        var diff := q - s.livros[k].quantidade;
        var updated := edited.(quantidade := q);
        var s' := s.(livros := s.livros[k := updated]);
        if diff > 0 then
          var added := NewCopies(s.qtdAcervo, diff, id, GrowthLibrary(s, f));
          Reply(s'.(acervo := s.acervo + added, qtdAcervo := s.qtdAcervo + diff), Ok(updated))
        else if diff < 0 then
          var available := AvailableOf(s.acervo, id);
          if |available| < -diff then Reply(s.(livros := s.livros[k := edited]), Err(InsufficientCopies))
          else Reply(s'.(acervo := RemoveEach(s.acervo, available[..-diff])), Ok(updated))
        else Reply(s', Ok(updated))
  }

  /** Raising the quantity by diff > 0 appends exactly diff available copies of the
      title at the growth library, numbered on from the copy counter; the existing
      copies stay as they were. */
  lemma UpdateTitleGrows(s: Store, id: int, f: TitleFields, k: nat)
    requires FindTitle(s.livros, id) == Some(k)
    requires f.quantidade.Some? && f.quantidade.value > s.livros[k].quantidade
    ensures var r := UpdateTitle(s, id, f); var diff := f.quantidade.value - s.livros[k].quantidade;
      && r.result.Ok?
      && r.result.value == EditTitle(s.livros[k], f).(quantidade := f.quantidade.value)
      && r.store.livros == s.livros[k := r.result.value]
      && |r.store.acervo| == |s.acervo| + diff
      && r.store.acervo[..|s.acervo|] == s.acervo
      && (forall i :: |s.acervo| <= i < |r.store.acervo| ==>
            r.store.acervo[i] == Copy(s.qtdAcervo + (i - |s.acervo|), id, GrowthLibrary(s, f), Available))
      && r.store.qtdAcervo == s.qtdAcervo + diff
  {
    var r := UpdateTitle(s, id, f);
    assert r.store.acervo[..|s.acervo|] == s.acervo;
  }

  /** Lowering the quantity by `remove` when enough copies are available removes
      them with the reclaim loop and stores the new quantity. */
  lemma UpdateTitleShrinks(s: Store, id: int, f: TitleFields, k: nat)
    requires FindTitle(s.livros, id) == Some(k)
    requires f.quantidade.Some? && f.quantidade.value < s.livros[k].quantidade
    requires |AvailableOf(s.acervo, id)| >= s.livros[k].quantidade - f.quantidade.value
    ensures var r := UpdateTitle(s, id, f); var remove := s.livros[k].quantidade - f.quantidade.value;
      && r.result.Ok?
      && r.result.value == EditTitle(s.livros[k], f).(quantidade := f.quantidade.value)
      && r.store.livros == s.livros[k := r.result.value]
      && r.store.acervo == RemoveEach(s.acervo, AvailableOf(s.acervo, id)[..remove])
      && r.store.qtdAcervo == s.qtdAcervo
  {
  }

  /** On a valid store, a successful shrink by `remove` takes away exactly the first
      `remove` available copies of the title in list (ascending id) order: borrowed
      copies and other titles' copies stay, in order, and the title's count drops
      by `remove`. */
  lemma UpdateTitleReclaims(s: Store, id: int, f: TitleFields, k: nat)
    requires Valid(s)
    requires FindTitle(s.livros, id) == Some(k)
    requires f.quantidade.Some? && f.quantidade.value < s.livros[k].quantidade
    requires |AvailableOf(s.acervo, id)| >= s.livros[k].quantidade - f.quantidade.value
    ensures var r := UpdateTitle(s, id, f); var remove := s.livros[k].quantidade - f.quantidade.value;
      && r.result.Ok?
      && AvailableOf(r.store.acervo, id) == AvailableOf(s.acervo, id)[remove..]
      && OthersThanAvailableOf(r.store.acervo, id) == OthersThanAvailableOf(s.acervo, id)
      && CountOf(r.store.acervo, id) == CountOf(s.acervo, id) - remove
      && (forall other :: other != id ==> CopiesOf(r.store.acervo, other) == CopiesOf(s.acervo, other))
  {
    var remove := s.livros[k].quantidade - f.quantidade.value;
    var after := UpdateTitle(s, id, f).store.acervo;
    UpdateTitleShrinks(s, id, f, k);
    ReclaimIsDrop(s.acervo, id, remove);
    assert after == DropAvailable(s.acervo, id, remove);
    DropAvailableSpec(s.acervo, id, remove);
    forall other | other != id
      ensures CopiesOf(after, other) == CopiesOf(s.acervo, other)
    {
      DropAvailableOtherTitles(s.acervo, id, remove, other);
    }
  }

  /** Lowering the quantity by more than the available copies fails: the copies and
      the quantity are as before, yet the other edits have been applied. */
  lemma UpdateTitleInsufficient(s: Store, id: int, f: TitleFields, k: nat)
    requires FindTitle(s.livros, id) == Some(k)
    requires f.quantidade.Some?
    requires |AvailableOf(s.acervo, id)| < s.livros[k].quantidade - f.quantidade.value
    ensures var r := UpdateTitle(s, id, f);
      && r.result == Err(InsufficientCopies)
      && r.store == s.(livros := s.livros[k := EditTitle(s.livros[k], f)])
      && r.store.livros[k].quantidade == s.livros[k].quantidade
  {
  }

  /** While a title's count matches its quantity, a negative new quantity always
      takes the insufficient-copies path. */
  lemma NegativeQuantityRejected(s: Store, id: int, f: TitleFields, k: nat)
    requires Consistent(s)
    requires FindTitle(s.livros, id) == Some(k)
    requires f.quantidade.Some? && f.quantidade.value < 0
    ensures UpdateTitle(s, id, f).result == Err(InsufficientCopies)
  {
    AvailableWithinCount(s.acervo, id);
  }

  /** An update that leaves the quantity absent or unchanged is a plain edit: the
      title at the first index with the id gets the edits, and nothing else in the
      store changes, the copies and every counter included. */
  lemma UpdateTitleEditsOnly(s: Store, id: int, f: TitleFields, k: nat)
    requires FindTitle(s.livros, id) == Some(k)
    requires f.quantidade.None? || f.quantidade.value == s.livros[k].quantidade
    ensures var r := UpdateTitle(s, id, f);
      && r.result == Ok(EditTitle(s.livros[k], f))
      && r.store == s.(livros := s.livros[k := EditTitle(s.livros[k], f)])
  {
    if f.quantidade.Some? {
      assert EditTitle(s.livros[k], f).(quantidade := f.quantidade.value) == EditTitle(s.livros[k], f);
    }
  }

  /** The edits are idempotent: editing twice with the same fields is editing once. */
  lemma EditTitleTwice(t: Title, f: TitleFields)
    ensures EditTitle(EditTitle(t, f), f) == EditTitle(t, f)
  {
  }

  /** Repeating an update is harmless: the second identical PUT finds the title
      where the first left it, reconciles nothing (the count already matches, or
      is still short of available copies) and gives the same answer. */
  lemma UpdateTitleTwice(s: Store, id: int, f: TitleFields)
    ensures var once := UpdateTitle(s, id, f); UpdateTitle(once.store, id, f) == once
  {
    var once := UpdateTitle(s, id, f);
    match FindTitle(s.livros, id)
    case None =>
    case Some(k) =>
      var edited := EditTitle(s.livros[k], f);
      EditTitleTwice(s.livros[k], f);
      if f.quantidade.None? {
        FindTitleAfterReplace(s.livros, id, k, edited);
      } else {
        var q := f.quantidade.value;
        var updated := edited.(quantidade := q);
        if q < s.livros[k].quantidade && |AvailableOf(s.acervo, id)| < s.livros[k].quantidade - q {
          FindTitleAfterReplace(s.livros, id, k, edited);
          assert once.store.acervo == s.acervo;
        } else {
          FindTitleAfterReplace(s.livros, id, k, updated);
          assert once.store.livros[k] == updated;
          assert EditTitle(updated, f) == updated;
          assert once.store.livros[k := updated] == once.store.livros;
        }
      }
  }

  // ---------------------------------------------------------------------------
  // Reclaiming copies

  lemma HeadBelowTail(cs: seq<Copy>)
    requires |cs| > 0 && Increasing(cs, CopyId)
    ensures forall c :: c in cs[1..] ==> cs[0].id < c.id
  {
    var rest := cs[1..];
    forall c | c in rest ensures cs[0].id < c.id {
      var j :| 0 <= j < |rest| && rest[j] == c;
      assert CopyId(cs[0]) < CopyId(cs[j + 1]);
    }
  }

  lemma RemoveFirstSkipsHead(c: Copy, rest: seq<Copy>, id: int)
    requires c.id != id
    ensures RemoveFirstWithId([c] + rest, id) == [c] + RemoveFirstWithId(rest, id)
  {
    var cs := [c] + rest;
    var p := (x: Copy) => x.id == id;
    assert cs[1..] == rest;
    match IndexWhere(rest, p)
    case None =>
    case Some(k) =>
      assert IndexWhere(cs, p) == Some(k + 1);
      assert RemoveAt(cs, k + 1) == [c] + RemoveAt(rest, k);
  }

  lemma {:induction false} RemoveEachSkipsHead(c: Copy, rest: seq<Copy>, victims: seq<Copy>)
    requires forall v :: v in victims ==> v.id != c.id
    ensures RemoveEach([c] + rest, victims) == [c] + RemoveEach(rest, victims)
    decreases |victims|
  {
    if |victims| > 0 {
      RemoveFirstSkipsHead(c, rest, victims[0].id);
      RemoveEachSkipsHead(c, RemoveFirstWithId(rest, victims[0].id), victims[1..]);
    }
  }

  /** The available copies of a title, one element at a time. */
  lemma AvailableOfUnfold(cs: seq<Copy>, title: int)
    requires |cs| > 0
    ensures AvailableOf(cs, title) ==
      if IsAvailableCopyOf(cs[0], title) then [cs[0]] + AvailableOf(cs[1..], title)
      else AvailableOf(cs[1..], title)
  {
  }

  /** Looking up the id of the head copy finds the head and splices it out. */
  lemma RemoveFirstAtHead(cs: seq<Copy>)
    requires |cs| > 0
    ensures RemoveFirstWithId(cs, cs[0].id) == cs[1..]
  {
    assert IndexWhere(cs, (c: Copy) => c.id == cs[0].id) == Some(0);
  }

  /** When the head copy is the first victim, one round of the loop removes it. */
  lemma ReclaimTakesHead(cs: seq<Copy>, title: int, k: nat)
    requires 0 < k <= |AvailableOf(cs, title)|
    requires |cs| > 0 && IsAvailableCopyOf(cs[0], title)
    ensures k - 1 <= |AvailableOf(cs[1..], title)|
    ensures RemoveEach(cs, AvailableOf(cs, title)[..k])
         == RemoveEach(cs[1..], AvailableOf(cs[1..], title)[..k - 1])
  {
    var victims := AvailableOf(cs, title)[..k];
    AvailableOfUnfold(cs, title);
    assert victims[0] == cs[0];
    assert victims[1..] == AvailableOf(cs[1..], title)[..k - 1];
    RemoveFirstAtHead(cs);
  }

  /** When the head copy is not a victim, the loop leaves it in front. */
  lemma ReclaimKeepsHead(cs: seq<Copy>, title: int, k: nat)
    requires Increasing(cs, CopyId)
    requires k <= |AvailableOf(cs, title)|
    requires |cs| > 0 && !IsAvailableCopyOf(cs[0], title)
    ensures k <= |AvailableOf(cs[1..], title)|
    ensures RemoveEach(cs, AvailableOf(cs, title)[..k])
         == [cs[0]] + RemoveEach(cs[1..], AvailableOf(cs[1..], title)[..k])
  {
    var rest := cs[1..];
    AvailableOfUnfold(cs, title);
    HeadBelowTail(cs);
    var victims := AvailableOf(rest, title)[..k];
    forall v | v in victims ensures v.id != cs[0].id {
      assert v in AvailableOf(rest, title);
    }
    assert cs == [cs[0]] + rest;
    RemoveEachSkipsHead(cs[0], rest, victims);
  }

  /** With copy ids in increasing order, the reclaim loop as written removes
      exactly the first k available copies of the title: looking each victim up
      by id finds that very copy. */
  lemma {:induction false} ReclaimIsDrop(cs: seq<Copy>, title: int, k: nat)
    requires Increasing(cs, CopyId)
    requires k <= |AvailableOf(cs, title)|
    ensures RemoveEach(cs, AvailableOf(cs, title)[..k]) == DropAvailable(cs, title, k)
    decreases |cs|
  {
    if k > 0 {
      TailIncreasing(cs, CopyId);
      if IsAvailableCopyOf(cs[0], title) {
        ReclaimTakesHead(cs, title, k);
        ReclaimIsDrop(cs[1..], title, k - 1);
      } else {
        ReclaimKeepsHead(cs, title, k);
        ReclaimIsDrop(cs[1..], title, k);
      }
    } else {
      assert AvailableOf(cs, title)[..k] == [];
    }
  }

  lemma {:induction false} DropAvailableSpec(cs: seq<Copy>, title: int, k: nat)
    requires k <= |AvailableOf(cs, title)|
    ensures AvailableOf(DropAvailable(cs, title, k), title) == AvailableOf(cs, title)[k..]
    ensures OthersThanAvailableOf(DropAvailable(cs, title, k), title) == OthersThanAvailableOf(cs, title)
    ensures CountOf(DropAvailable(cs, title, k), title) == CountOf(cs, title) - k
    decreases |cs|
  {
    if k > 0 {
      var rest := cs[1..];
      if IsAvailableCopyOf(cs[0], title) {
        DropAvailableSpec(rest, title, k - 1);
      } else {
        DropAvailableSpec(rest, title, k);
        var d := DropAvailable(rest, title, k);
        assert ([cs[0]] + d)[1..] == d;
      }
    }
  }

  /** Copies of other titles are untouched by dropping available copies of one title. */
  lemma DropAvailableOtherTitles(cs: seq<Copy>, title: int, k: nat, other: int)
    requires k <= |AvailableOf(cs, title)|
    requires other != title
    ensures CopiesOf(DropAvailable(cs, title, k), other) == CopiesOf(cs, other)
  {
    var isOther := (c: Copy) => IsCopyOf(c, other);
    var keep := (c: Copy) => !IsAvailableCopyOf(c, title);
    DropAvailableSpec(cs, title, k);
    FilterFilter(DropAvailable(cs, title, k), keep, isOther);
    FilterFilter(cs, keep, isOther);
  }

  /** Dropping keeps only copies that were there, in increasing id order. */
  lemma {:induction false} DropAvailableOrdered(cs: seq<Copy>, title: int, k: nat)
    requires Increasing(cs, CopyId)
    ensures forall c :: c in DropAvailable(cs, title, k) ==> c in cs
    ensures Increasing(DropAvailable(cs, title, k), CopyId)
    decreases |cs|
  {
    if k > 0 && |cs| > 0 {
      var rest := cs[1..];
      TailIncreasing(cs, CopyId);
      HeadBelowTail(cs);
      DropAvailableOrdered(rest, title, if IsAvailableCopyOf(cs[0], title) then k - 1 else k);
      if !IsAvailableCopyOf(cs[0], title) {
        ConsIncreasing(cs[0], DropAvailable(rest, title, k), CopyId);
      }
    }
  }

  /** Every update keeps the id discipline, and keeps every title's copy count
      equal to its quantity. */
  lemma UpdateTitlePreserves(s: Store, id: int, f: TitleFields)
    requires Valid(s)
    ensures Valid(UpdateTitle(s, id, f).store)
    ensures Consistent(s) ==> Consistent(UpdateTitle(s, id, f).store)
  {
    match FindTitle(s.livros, id)
    case None =>
    case Some(k) =>
      if f.quantidade.None? {
        UpdateKeepsPreserves(s, id, f, k);
      } else {
        var q := f.quantidade.value;
        var oldQ := s.livros[k].quantidade;
        if q > oldQ {
          UpdateGrowsPreserves(s, id, f, k);
        } else if q < oldQ && |AvailableOf(s.acervo, id)| >= oldQ - q {
          UpdateShrinksPreserves(s, id, f, k);
        } else {
          UpdateKeepsPreserves(s, id, f, k);
        }
      }
  }

  /** An update of title `k` that does not touch the copies keeps both invariants. */
  lemma UpdateKeepsPreserves(s: Store, id: int, f: TitleFields, k: nat)
    requires Valid(s) && FindTitle(s.livros, id) == Some(k)
    requires f.quantidade.None? || f.quantidade.value == s.livros[k].quantidade
      || (f.quantidade.value < s.livros[k].quantidade
          && |AvailableOf(s.acervo, id)| < s.livros[k].quantidade - f.quantidade.value)
    ensures Valid(UpdateTitle(s, id, f).store)
    ensures Consistent(s) ==> Consistent(UpdateTitle(s, id, f).store)
  {
    var s' := UpdateTitle(s, id, f).store;
    assert s'.acervo == s.acervo && s'.livros[k].quantidade == s.livros[k].quantidade;
    assert s'.livros == s.livros[k := s'.livros[k]] && s'.livros[k].id == id;
    UpdatedTitlesOrdered(s, s', k);
    UpdateKeepsCopies(s, s', k);
  }

  /** An update of title `k` that raises its quantity keeps both invariants. */
  lemma UpdateGrowsPreserves(s: Store, id: int, f: TitleFields, k: nat)
    requires Valid(s) && FindTitle(s.livros, id) == Some(k)
    requires f.quantidade.Some? && f.quantidade.value > s.livros[k].quantidade
    ensures Valid(UpdateTitle(s, id, f).store)
    ensures Consistent(s) ==> Consistent(UpdateTitle(s, id, f).store)
  {
    var s' := UpdateTitle(s, id, f).store;
    var diff := f.quantidade.value - s.livros[k].quantidade;
    UpdateTitleGrows(s, id, f, k);
    assert s'.acervo == s.acervo + NewCopies(s.qtdAcervo, diff, id, GrowthLibrary(s, f));
    assert s'.livros == s.livros[k := s'.livros[k]] && s'.livros[k].id == id;
    UpdatedTitlesOrdered(s, s', k);
    UpdateGrowsValid(s, s', id, k, diff, GrowthLibrary(s, f));
  }

  /** An update of title `k` that lowers its quantity with enough copies available
      keeps both invariants. */
  lemma UpdateShrinksPreserves(s: Store, id: int, f: TitleFields, k: nat)
    requires Valid(s) && FindTitle(s.livros, id) == Some(k)
    requires f.quantidade.Some? && f.quantidade.value < s.livros[k].quantidade
    requires |AvailableOf(s.acervo, id)| >= s.livros[k].quantidade - f.quantidade.value
    ensures Valid(UpdateTitle(s, id, f).store)
    ensures Consistent(s) ==> Consistent(UpdateTitle(s, id, f).store)
  {
    var s' := UpdateTitle(s, id, f).store;
    var remove := s.livros[k].quantidade - f.quantidade.value;
    UpdateTitleShrinks(s, id, f, k);
    ReclaimIsDrop(s.acervo, id, remove);
    assert s'.acervo == DropAvailable(s.acervo, id, remove);
    assert s'.livros == s.livros[k := s'.livros[k]] && s'.livros[k].id == id;
    UpdatedTitlesOrdered(s, s', k);
    UpdateShrinksValid(s, s', id, k, remove);
  }

  /** Replacing title `k` by one with the same id keeps the title ids in order and below the counter. */
  lemma UpdatedTitlesOrdered(s: Store, s': Store, k: nat)
    requires Valid(s) && k < |s.livros| && s'.qtdLivros == s.qtdLivros
    requires |s'.livros| == |s.livros| && s'.livros == s.livros[k := s'.livros[k]]
    requires s'.livros[k].id == s.livros[k].id
    ensures Increasing(s'.livros, TitleId) && KeysBelow(s'.livros, TitleId, s'.qtdLivros)
  {
    UpdateIncreasing(s.livros, k, s'.livros[k], TitleId);
    forall x | x in s'.livros ensures 0 <= TitleId(x) < s'.qtdLivros {
      var j :| 0 <= j < |s'.livros| && s'.livros[j] == x;
      assert s.livros[j] in s.livros;
    }
  }

  /** An update that leaves the copies alone keeps both invariants. */
  lemma UpdateKeepsCopies(s: Store, s': Store, k: nat)
    requires Valid(s) && k < |s.livros|
    requires s'.acervo == s.acervo && s'.qtdAcervo == s.qtdAcervo
    requires s'.bibliotecas == s.bibliotecas && s'.qtdBibliotecas == s.qtdBibliotecas
    requires Increasing(s'.livros, TitleId) && KeysBelow(s'.livros, TitleId, s'.qtdLivros)
    requires |s'.livros| == |s.livros| && s'.livros == s.livros[k := s'.livros[k]] && s'.livros[k].id == s.livros[k].id
    ensures Valid(s')
    ensures Consistent(s) && s'.livros[k].quantidade == s.livros[k].quantidade ==> Consistent(s')
  {
    forall c | c in s'.acervo ensures HasTitle(s'.livros, c.idlivro) {
      var j :| 0 <= j < |s.livros| && s.livros[j].id == c.idlivro;
      assert s'.livros[j].id == c.idlivro;
    }
  }

  /** Growing title `k` by `diff` added copies keeps both invariants. */
  lemma UpdateGrowsValid(s: Store, s': Store, id: int, k: nat, diff: nat, lib: int)
    requires Valid(s) && k < |s.livros| && s.livros[k].id == id
    requires s'.acervo == s.acervo + NewCopies(s.qtdAcervo, diff, id, lib)
    requires s'.qtdAcervo == s.qtdAcervo + diff
    requires s'.bibliotecas == s.bibliotecas && s'.qtdBibliotecas == s.qtdBibliotecas
    requires Increasing(s'.livros, TitleId) && KeysBelow(s'.livros, TitleId, s'.qtdLivros)
    requires |s'.livros| == |s.livros| && s'.livros == s.livros[k := s'.livros[k]] && s'.livros[k].id == id
    ensures Valid(s')
    ensures Consistent(s) && s'.livros[k].quantidade == s.livros[k].quantidade + diff ==> Consistent(s')
  {
    var added := NewCopies(s.qtdAcervo, diff, id, lib);
    AppendIncreasing(s.acervo, added, CopyId, s.qtdAcervo);
    forall c | c in s'.acervo ensures HasTitle(s'.livros, c.idlivro) {
      if c in s.acervo {
        var j :| 0 <= j < |s.livros| && s.livros[j].id == c.idlivro;
        assert s'.livros[j].id == c.idlivro;
      } else {
        assert s'.livros[k].id == c.idlivro;
      }
    }
    if Consistent(s) && s'.livros[k].quantidade == s.livros[k].quantidade + diff {
      forall j | 0 <= j < |s'.livros|
        ensures CountOf(s'.acervo, s'.livros[j].id) == s'.livros[j].quantidade
      {
        var other := s'.livros[j].id;
        FilterConcat(s.acervo, added, (c: Copy) => IsCopyOf(c, other));
        NewCopiesCounted(s.qtdAcervo, diff, id, lib, other);
        if j != k {
          TitleIdsDistinct(s, j, k);
        }
      }
    }
  }

  /** Shrinking title `k` by dropping `remove` available copies keeps both invariants. */
  lemma UpdateShrinksValid(s: Store, s': Store, id: int, k: nat, remove: nat)
    requires Valid(s) && k < |s.livros| && s.livros[k].id == id
    requires remove <= |AvailableOf(s.acervo, id)|
    requires s'.acervo == DropAvailable(s.acervo, id, remove) && s'.qtdAcervo == s.qtdAcervo
    requires s'.bibliotecas == s.bibliotecas && s'.qtdBibliotecas == s.qtdBibliotecas
    requires Increasing(s'.livros, TitleId) && KeysBelow(s'.livros, TitleId, s'.qtdLivros)
    requires |s'.livros| == |s.livros| && s'.livros == s.livros[k := s'.livros[k]] && s'.livros[k].id == id
    ensures Valid(s')
    ensures Consistent(s) && s'.livros[k].quantidade == s.livros[k].quantidade - remove ==> Consistent(s')
  {
    DropAvailableOrdered(s.acervo, id, remove);
    forall c | c in s'.acervo ensures 0 <= CopyId(c) < s'.qtdAcervo && HasTitle(s'.livros, c.idlivro) {
      var j :| 0 <= j < |s.livros| && s.livros[j].id == c.idlivro;
      assert s'.livros[j].id == c.idlivro;
    }
    if Consistent(s) && s'.livros[k].quantidade == s.livros[k].quantidade - remove {
      forall j | 0 <= j < |s'.livros|
        ensures CountOf(s'.acervo, s'.livros[j].id) == s'.livros[j].quantidade
      {
        if j == k {
          DropAvailableSpec(s.acervo, id, remove);
        } else {
          TitleIdsDistinct(s, j, k);
          DropAvailableOtherTitles(s.acervo, id, remove, s.livros[j].id);
        }
      }
    }
  }

  // ---------------------------------------------------------------------------
  // DELETE /livros/:id

  /** Deletes the first title with the given id together with all of its copies,
      borrowed or not. Nothing else changes, counters included. */
  function DeleteTitle(s: Store, id: int): (r: Reply<Title>)
    ensures r.result.Err? <==> !HasTitle(s.livros, id)
    ensures r.result.Err? ==> r.result.error == NotFound && r.store == s
    ensures r.result.Ok? ==> r.result.value.id == id && r.result.value in s.livros
    ensures r.result.Ok? ==> |r.store.livros| == |s.livros| - 1
    ensures r.result.Ok? ==> CopiesOf(r.store.acervo, id) == []
    ensures forall c :: c in r.store.acervo ==> c in s.acervo
    ensures forall k: nat :: FindTitle(s.livros, id) == Some(k) ==> r.store.livros == RemoveAt(s.livros, k)
    ensures r.store.usuarios == s.usuarios && r.store.bibliotecas == s.bibliotecas
    ensures r.store.qtdUsuarios == s.qtdUsuarios && r.store.qtdBibliotecas == s.qtdBibliotecas
    ensures r.store.qtdLivros == s.qtdLivros && r.store.qtdAcervo == s.qtdAcervo
  {
    match FindTitle(s.livros, id)
    case None => Reply(s, Err(NotFound))
    case Some(k) =>
      var remaining := Filter(s.acervo, (c: Copy) => c.idlivro != id);
      FilterNone(remaining, (c: Copy) => IsCopyOf(c, id));
      Reply(s.(livros := RemoveAt(s.livros, k), acervo := remaining), Ok(s.livros[k]))
  }

  /** Deleting a title removes exactly its copies: those of every other title stay. */
  lemma DeleteTitleCascade(s: Store, id: int, other: int)
    requires DeleteTitle(s, id).result.Ok?
    requires other != id
    ensures CopiesOf(DeleteTitle(s, id).store.acervo, other) == CopiesOf(s.acervo, other)
  {
    FilterFilter(s.acervo, (c: Copy) => c.idlivro != id, (c: Copy) => IsCopyOf(c, other));
  }

  /** Deletion keeps both invariants: the copies left refer to titles still present,
      and the surviving titles keep their counts. */
  lemma DeleteTitlePreserves(s: Store, id: int)
    requires Valid(s)
    ensures Valid(DeleteTitle(s, id).store)
    ensures Consistent(s) ==> Consistent(DeleteTitle(s, id).store)
  {
    match FindTitle(s.livros, id)
    case None =>
    case Some(k) =>
      var s' := DeleteTitle(s, id).store;
      var keep := (c: Copy) => c.idlivro != id;
      assert s'.livros == RemoveAt(s.livros, k) && s'.acervo == Filter(s.acervo, keep);
      FilterIncreasing(s.acervo, keep, CopyId);
      RemoveAtIncreasing(s.livros, k, TitleId);
      RemoveAtSubset(s.livros, k);
      forall c | c in s'.acervo ensures HasTitle(s'.livros, c.idlivro) {
        var j :| 0 <= j < |s.livros| && s.livros[j].id == c.idlivro;
        assert j != k;
        if j < k {
          assert s'.livros[j] == s.livros[j];
        } else {
          assert s'.livros[j - 1] == s.livros[j];
        }
      }
      if Consistent(s) {
        DeleteTitleConsistent(s, id, k);
      }
  }

  /** The count half of `DeleteTitlePreserves`: every surviving title keeps its copies. */
  lemma DeleteTitleConsistent(s: Store, id: int, k: nat)
    requires Valid(s) && Consistent(s) && FindTitle(s.livros, id) == Some(k)
    ensures Consistent(DeleteTitle(s, id).store)
  {
    var s' := DeleteTitle(s, id).store;
    assert s'.livros == RemoveAt(s.livros, k);
    forall i | 0 <= i < |s'.livros|
      ensures CountOf(s'.acervo, s'.livros[i].id) == s'.livros[i].quantidade
    {
      var j := if i < k then i else i + 1;
      assert s'.livros[i] == s.livros[j];
      TitleIdsDistinct(s, j, k);
      DeleteTitleCascade(s, id, s.livros[j].id);
    }
  }
}

=== FILE: wrappers.dfy ===
/** Optional request fields and the three failure kinds a ledger handler can report. */
module Wrappers {

  /** A request-body field that may be absent (`undefined` in the handlers). */
  datatype Option<+T> = None | Some(value: T)

  /** The failure kinds of the ledger. The handlers answer them with HTTP 400
      (Validation, InsufficientCopies) and 404 (NotFound). */
  datatype Error = Validation | NotFound | InsufficientCopies

  datatype Result<+T> = Ok(value: T) | Err(error: Error)

  /** JavaScript truthiness of an optional string field: present and non-empty. */
  predicate TruthyText(f: Option<string>) {
    f.Some? && f.value != ""
  }

  /** JavaScript truthiness of an optional numeric field: present and non-zero. */
  predicate TruthyNumber(f: Option<int>) {
    f.Some? && f.value != 0
  }
}
